=== FILE: README.md ===
# Hot tub solar pump controller, modelled in Dafny

The controller script (`main_script.py`) runs a loop every ten minutes. On each pass it:

- reads the hot tub and solar-collector thermometers from the printed form (`str(result)`) of a sensor tool's run;
- delays the solar reading through a small lag buffer;
- asks the heater's smart plug whether the heater is on;
- decides whether to switch the solar pump's smart plug on or off;
- logs one decision row to a spreadsheet.

This project models that decision core and proves what it promises.

The decision rules are tried in order, and the first that applies ends the tick:

1. Missing readings are counted, and a third failure in a row switches the pump off (the failsafe).
2. While the lag buffer is still filling, the tick does nothing.
3. At or above 104 °F the pump and the heater are switched off (the safety ceiling).
4. A running heater keeps the pump off.
5. The pump keeps its state through a minimum ON time of 30 minutes and a minimum OFF time of 20 minutes.
6. Otherwise hysteresis applies on delta = solar − tub: the pump goes on above 6 °F and off below 4 °F.

The project has these modules:

- `Decimal` (`decimal.dfy`): decimal text of integers (`f"{n}"`) and reading a run of ASCII digits back (`int(s)` on the `\d+` group of a match).
- `Duration` (`duration.dfy`): `format_duration`, and a reader `ParseDuration` that is its partner. The round trip is proved for every non-negative number of minutes outside (1, 2); elapsed times at or below -1 minutes, which a wall clock that steps back produces, print with a sign and do not read back.
- `TempExtract` (`temp_extract.dfy`): `extract_temp_f`. This covers `str.find`, the 20-character window, `re.search(r"(\d+),")` and the conversion from hundredths of °C to °F. The search functions are characterised against a declarative description of a match.
- `ControlSpec` (`control_spec.dfy`): one pass of the main loop as a pure function `Step`. It maps the controller's globals (`State`) and one tick's inputs (`Sample`) to the next globals and the tick's `Output`. An `Output` is a pump command, a heater command and the decision record sent, if any. `Run` and `RunOutputs` fold `Step` over a sequence of ticks.
- `ControlProperties` (`control_props.dfy`): properties of one tick and of runs. These cover the failsafe, warm-up, safety ceiling, heater override, the if-and-only-if conditions for switching the pump, minimum ON and OFF times, the lag buffer's contents, and the invariant of the globals. It also holds worked examples.
- `PumpController` (`controller.dfy`): the globals as fields of a class, and the loop body as methods that update them in place, rule by rule. Each method is proved equal to the corresponding specification function. `RunTicks` is the loop itself.

Time is an integer number of seconds. Elapsed minutes are `(now - t) / 60` as an exact real. Temperatures are exact reals in °F.

Two places where the model follows the code as written:

- A tick with a missing reading sends no decision record, and neither does the failsafe. Only the console is written.
- The safety ceiling clears the pump's on-time, and restarts its off-time, only when the pump was on. When the pump was off, the off-time is set only if it was unset, and an on-time is left as it was.

## Model

| member | source | states |
|---|---|---|
| Decimal.NatToString | main_script.py:66 | The decimal text of a count is non-empty, all ASCII digits, and a single digit exactly for counts below ten |
| Decimal.IntToString | main_script.py:66 | `f"{i}"` never contains a space and is the plain digits for a non-negative integer |
| Decimal.DigitsValue | main_script.py:156 | The value of a run of digits, most significant first; `ParseNatToString` states it |
| Decimal.ParseNat | main_script.py:156 | For a non-empty run of ASCII digits, `int(s)` is its value; other text gives None |
| Decimal.ParseNatToString | main_script.py:156 | Reading back the decimal text of a number gives the number |
| Decimal.NatToStringInjective | main_script.py:66 | Distinct numbers are printed differently |
| Duration.Trunc | main_script.py:66 | Python's `int()` on a float, truncation toward zero; `TruncTowardZero` states it |
| Duration.TruncTowardZero | main_script.py:66 | `int(x)` is within one of `x`, not above it for x >= 0 and not below it for x < 0 |
| Duration.FloatMod | main_script.py:70-71 | Python's float `%`, the floored remainder; `FloatModRange` and `FloatModSmall` state it |
| Duration.FloatModRange | main_script.py:70-71 | A float `%` by a positive divisor lies in [0, y) |
| Duration.FloatModSmall | main_script.py:78-80 | A float `%` leaves a value already in [0, y) as it is |
| Duration.PluralWord | main_script.py:72 | The unit word, singular exactly for a count of one; `UnitWordOfName` and `ReadPhrase` read it back |
| Duration.CountPhrase | main_script.py:72-74 | `f"{n} unit"` or `f"{n} units"`; `ReadPhrase` reads it back |
| Duration.Join | main_script.py:93 | `" ".join(parts)`; `SplitJoinPhrases` splits it back into the words |
| Duration.HoursText | main_script.py:68-76 | The branch for an hour up to a day; `HoursTextByFloor` and `FormatHours` state it |
| Duration.HourText | main_script.py:70-76 | The hour phrase and a non-zero minute phrase; `HourPhrases` and `HourPartsReadable` state it |
| Duration.DaysText | main_script.py:78-80 | The branch for a day or more; `DaysTextByFloor` and `FormatDays` state it |
| Duration.DayText | main_script.py:82-93 | Day, non-zero hour and non-zero minute phrases joined; `DayPhrases` and `DayPartsReadable` state it |
| Duration.FormatDuration | main_script.py:58-93 | `format_duration`: whole minutes below an hour, hours and minutes below a day, days, hours and minutes beyond, zero parts dropped above an hour and the unit singular for a count of one; `WholeMinutesRoundTrip` and `FormatDurationRoundTrip` prove what it means by reading it back |
| Duration.Split | main_script.py:93 | Splitting on spaces always yields at least one word (the partner of `" ".join`) |
| Duration.SplitWord | main_script.py:93 | A space-free word at the front of a text is glued to the first word of the rest |
| Duration.SplitFirstWord | main_script.py:75 | A space-free word followed by a space splits off as the first word |
| Duration.SplitLastWord | main_script.py:76 | A space-free text is a single word |
| Duration.SplitTwoWords | main_script.py:93 | Two space-free words and a following space split off as the first two words |
| Duration.SplitPair | main_script.py:75 | Two space-free words separated by one space split into exactly those two words |
| Duration.HourFloorFacts | main_script.py:68-71 | For a non-negative float, `int(minutes/60)` and `int(minutes % 60)` are the whole hours and the minutes past them |
| Duration.DayFloorFacts | main_script.py:78-79 | `int(hours/24)` and `int(hours % 24)` are the whole days and the hours past them |
| Duration.HoursTextByFloor | main_script.py:68-76 | The hours branch depends only on the whole number of minutes |
| Duration.DaysTextByFloor | main_script.py:78-93 | The days branch depends only on the whole number of minutes |
| Duration.FormatDurationByFloor | main_script.py:58-93 | Outside (1, 2), the text for a non-negative number of minutes is the text for its whole part |
| Duration.FormatHours | main_script.py:68-76 | From 60 to 1439 whole minutes, the text is hours, then the minutes past them if there are any |
| Duration.FormatDays | main_script.py:78-93 | From 1440 whole minutes on, the text is days, then the remaining hours and minutes that are not zero |
| Duration.ReadPhrase | main_script.py:72-74 | A count printed in decimal and the unit word that agrees with it read as that many minutes of the unit |
| Duration.ReadOneMinute | main_script.py:66 | "1 minute" reads back as one minute |
| Duration.SplitJoinPhrases | main_script.py:93 | Joining the phrases with spaces and splitting gives each count followed by its unit word |
| Duration.ReadWords | main_script.py:83-93 | The words of parts in decreasing units, each within its unit's span, read as the parts' total minutes |
| Duration.PartsReadable | main_script.py:65-93 | The parts printed for a whole number of minutes are in decreasing units within their spans and total that number |
| Duration.HourPartsReadable | main_script.py:68-76 | Hours and the minutes past them are readable and total 60·h + m |
| Duration.DayPartsReadable | main_script.py:78-93 | Days, hours and minutes are readable and total 1440·d + 60·h + m |
| Duration.FormatWhole | main_script.py:58-93 | The text for a whole number of minutes is its nonzero parts' phrases joined by spaces |
| Duration.HourPhrases | main_script.py:72-76 | The hours text is its phrases joined by spaces, with a zero minute count dropped |
| Duration.DayPhrases | main_script.py:82-93 | The days text is its phrases joined by spaces, with zero hours and zero minutes dropped |
| Duration.WholeMinutesRoundTrip | main_script.py:58-93 | Reading back the text for any whole number of minutes gives that number |
| Duration.FormatDurationRoundTrip | main_script.py:58-93 | Reading back the text for a non-negative number of minutes (outside (1, 2)) gives its whole part |
| Duration.SingularMinuteOnlyForOne | main_script.py:66 | "1 minute" is printed exactly for one minute |
| Duration.NegativeMinutesUnreadable | main_script.py:65-66 | At or below -1 minutes (a clock that stepped back), the text is the signed count followed by "minutes", and it reads back as no duration |
| Duration.FractionalOneMinute | main_script.py:65-66 | Between 1 and 2 minutes, exclusive, the text is "1 minutes" |
| Duration.FormatMinutesExample | main_script.py:61 | 45 minutes prints "45 minutes" |
| Duration.FormatHoursExample | main_script.py:62 | 90 minutes prints "1 hour 30 minutes" |
| Duration.FormatDaysExample | main_script.py:63 | 1500 minutes prints "1 day 1 hour" |
| TempExtract.FindFrom | main_script.py:149-151 | `find` returns the first index where the marker occurs, and None exactly when it does not occur |
| TempExtract.Window | main_script.py:152 | The snippet is the characters from `start` on, at most 20 of them and cut off at the end of the text, and empty when `start` is past the end |
| TempExtract.RunEnd | main_script.py:34 | The greedy `\d+` ends at the first non-digit |
| TempExtract.MatchEndsAtRunEnd | main_script.py:34 | A digits-then-comma match can only end where the run of digits ends |
| TempExtract.RunEndAtNonDigit | main_script.py:34 | A run of digits followed by a non-digit ends there |
| TempExtract.MatchFrom | main_script.py:153 | The search finds the leftmost digits-then-comma match, and none exactly when there is none |
| TempExtract.Search | main_script.py:153-156 | The search fails exactly when the snippet holds no run of digits followed by a comma |
| TempExtract.HundredthsCToF | main_script.py:157-158 | The conversion inverts to hundredths of a degree Celsius |
| TempExtract.Find | main_script.py:149 | `output.find(marker)`, None for -1; `FindFrom` and `FindFirstOccurrence` state it |
| TempExtract.ReadAt | main_script.py:152-159 | The reading in the window at a start position; `ExtractTempFFound` and `SearchLeadingDigits` state it |
| TempExtract.ExtractTempF | main_script.py:148-159 | `extract_temp_f`: the first match of digits and a comma in the window `offset` characters past the marker's first occurrence, converted to °F, or None; `ExtractTempFMissing` and `ExtractTempFFound` state both cases against the declarative first occurrence and first match |
| TempExtract.ReadTemperatures | main_script.py:205-209 | The hot tub and raw solar readings taken from the printed result with each device's marker and offset; `ExtractTempFFound` and `ExtractTempFReadsPrinted` carry their meaning |
| TempExtract.ExtractTempFMissing | main_script.py:148-155 | No reading exactly when the marker is absent, or when the window after its first occurrence has no match |
| TempExtract.ExtractTempFFound | main_script.py:148-159 | A reading is the converted value of the leftmost match in the window after the marker's first occurrence |
| TempExtract.FindFirstOccurrence | main_script.py:149 | `find` reports the marker's first occurrence |
| TempExtract.SearchLeadingDigits | main_script.py:153-156 | Digits and a comma at the start of the snippet are the match, and their value is read |
| TempExtract.ExtractTempFReadsReport | main_script.py:148-159 | A window starting with digits and a comma yields those digits' value in °F |
| TempExtract.ExtractTempFReadsPrinted | main_script.py:148-159 | A reading printed as plain decimal digits is read back exactly |
| ControlSpec.ActionLabelInjective | main_script.py:261-360 | The logged action texts "ON", "OFF" and "No Change" are distinct, so the text in the log determines the action the model records |
| ControlSpec.MinutesSince | main_script.py:318 | `(now - t).total_seconds() / 60` on whole seconds; `MinimumOnRespected` and `MinimumOffRespected` state it |
| ControlSpec.SurfaceTemp | main_script.py:232 | The oldest buffered reading when there is a lag, the raw one otherwise; `LaggedSurface` and `RecordedReadings` state it |
| ControlSpec.InMinimumOn | main_script.py:317-319 | The pump is on, has an on-time, and less than 30 minutes have passed since it; `DwellNotes` and `PumpOffIff` state it |
| ControlSpec.InMinimumOff | main_script.py:328-330 | The pump is not on, has an off-time, and less than 20 minutes have passed since it; `DwellNotes` and `PumpOnIff` state it |
| ControlSpec.SafetyNote | main_script.py:262-271 | The safety note's parts joined by a dash; `SafetyCeiling` states it |
| ControlSpec.LastN | main_script.py:45 | What a `deque(maxlen=n)` holds: the last n elements; `LastNPush` and `RunBuffer` state it |
| ControlSpec.Pushed | main_script.py:226 | The lag buffer after `solar_buffer.append`; `SuccessfulRead`, `BufferBounded` and `RunBuffer` state it |
| ControlSpec.ReadFailure | main_script.py:211-222 | The failed-read branch: count the failure, and at the third switch the pump off, mark it off since now and restart the count; `ReadFailureTick` and `FailsafeEveryThird` state it |
| ControlSpec.SafetyShutdown | main_script.py:239-285 | The safety ceiling: pump and heater off, timestamps and record as the code sets them; `SafetyCeiling` and `RecordReportsNewState` state it |
| ControlSpec.HeaterOverride | main_script.py:287-315 | The heater override: pump kept off, off-time restarted; `HeaterOverrides` states it |
| ControlSpec.Hysteresis | main_script.py:339-361 | Switch on above delta 6 °F, off below 4 °F, otherwise keep the state with the matching note; `PumpOnIff`, `PumpOffIff`, `SwitchStampsNow` and `HysteresisNotes` state it |
| ControlSpec.StateDuration | main_script.py:368-375 | The duration column: how long the pump has been in its present state, or empty when that is unknown; `RecordReportsNewState` states it |
| ControlSpec.Logged | main_script.py:363-377 | The hysteresis rule's record of the state the tick leaves; `RecordReportsNewState` and `ActionMatchesCommand` state it |
| ControlSpec.Decide | main_script.py:239-361 | The rules once the buffer is full, in order: ceiling, heater, minimum ON, minimum OFF, hysteresis; `PumpOnIff`, `PumpOffIff`, `MinimumOnRespected` and `MinimumOffRespected` state it |
| ControlSpec.Step | main_script.py:205-378 | One pass of the loop body from the globals and the tick's inputs to the next globals and the tick's commands and record; `StepKeepsGood`, `RecordIffDecides` and `StepBookkeeping` state it |
| ControlSpec.Run | main_script.py:193-378 | The globals after the loop has run over a finite sequence of ticks; `RunKeepsGood`, `RunBuffer` and `RunFailCount` state it |
| ControlSpec.RunOutputs | main_script.py:193-378 | What each tick of that run commanded and logged; `LaggedSurface` and `FailsafeEveryThird` state it |
| ControlProperties.ReadFailureTick | main_script.py:211-222 | A missing reading only counts the failure, until the third, which switches the pump off, marks it off since now and restarts the count; no record is sent and the buffer is untouched |
| ControlProperties.SuccessfulRead | main_script.py:223-226 | A successful read restarts the failure count and appends the solar reading to the lag buffer |
| ControlProperties.StepBookkeeping | main_script.py:211-231 | How any tick changes the failure count and the lag buffer |
| ControlProperties.WarmUpTick | main_script.py:226-230 | Until the buffer is full, a tick only fills it: no command, no record |
| ControlProperties.RecordIffDecides | main_script.py:211-377 | A record is sent exactly when both readings are in and the buffer is full |
| ControlProperties.RecordedReadings | main_script.py:232-236 | The record carries the tub reading, the surface temperature used and their difference |
| ControlProperties.BufferBounded | main_script.py:45 | The lag buffer never holds more than lag_steps + 1 readings |
| ControlProperties.SafetyCeiling | main_script.py:239-285 | At or above 104 °F, the pump ends the tick off and a running heater is switched off, whatever the timers and delta; the pump is switched off exactly when it was on; the record has the action and note |
| ControlProperties.HeaterOverrides | main_script.py:287-315 | A running heater keeps the pump off and restarts its off-time, whatever the timers say; the pump is switched off exactly when it was on; the duration is "0 minutes" |
| ControlProperties.PumpOnIff | main_script.py:317-345 | The pump is switched on exactly when the tick decides below the ceiling, the heater is off, the pump is not on, its minimum OFF time is over, and delta > 6 |
| ControlProperties.PumpOffIff | main_script.py:211-352 | The pump is switched off exactly at the failsafe, or when it is on and the ceiling, the heater, or delta < 4 after the minimum ON time calls for it |
| ControlProperties.HeaterNeverSwitchedOn | main_script.py:239-378 | The controller never switches the heater on |
| ControlProperties.NoCommandKeepsPumpState | main_script.py:317-361 | A tick below the ceiling with the heater off that commands nothing leaves the pump state and records No Change |
| ControlProperties.ActionMatchesCommand | main_script.py:239-377 | The logged action agrees with the pump command, and the command with the state the tick leaves |
| ControlProperties.RecordReportsNewState | main_script.py:239-377 | Every record, the safety ceiling's included, reports the pump state the tick leaves and how long it has been in it |
| ControlProperties.StepKeepsGood | main_script.py:211-378 | Every tick keeps the globals consistent: timestamps agree with the pump state, the failure count stays below 3, and the buffer stays within bounds |
| ControlProperties.DecidedStaysDecided | main_script.py:211-378 | Once decided, the pump state never becomes unknown again |
| ControlProperties.MinimumOnRespected | main_script.py:317-326 | A pump switched off (not by the ceiling, heater or failsafe) had been on for at least 30 minutes by the wall clock since its stored on-time, which `SwitchStampsNow` and `StaysOnKeepsOnTime` show is the tick that switched it on |
| ControlProperties.MinimumOffRespected | main_script.py:328-345 | A pump switched on had been off for at least 20 minutes by the wall clock since its stored off-time, which `SwitchStampsNow` shows is stamped with the clock of the tick that switched it off |
| ControlProperties.SwitchStampsNow | main_script.py:211-352 | Every switch stamps the tick's clock: switching on stores `now` as the on-time and clears the off-time, switching off does the reverse, at the failsafe, the ceiling, the heater and in hysteresis alike |
| ControlProperties.StaysOnKeepsOnTime | main_script.py:317-361 | A tick that leaves a running pump on keeps the time it was switched on |
| ControlProperties.HeaterNote | main_script.py:287-315 | A running heater logs "pump turned off" exactly when the pump was on and "pump kept off" otherwise |
| ControlProperties.DwellNotes | main_script.py:317-337 | Below the ceiling with the heater off, the minimum ON note is logged exactly within the minimum ON time, the minimum OFF note exactly within the minimum OFF time |
| ControlProperties.HysteresisNotes | main_script.py:339-361 | Past the minimum times, each hysteresis note is logged exactly in its case; "Within hysteresis range" only for a pump not on with 0 < delta <= 6, since a running pump either switches off below 4 or stays on |
| ControlProperties.RunKeepsGood | main_script.py:193-378 | Any run of the loop keeps the globals consistent |
| ControlProperties.LastNPush | main_script.py:45 | Appending to a bounded deque is trimming the whole history |
| ControlProperties.RunBuffer | main_script.py:226 | After any run, the lag buffer holds the last lag_steps + 1 successful solar readings |
| ControlProperties.LaggedSurface | main_script.py:226-232 | The surface temperature logged is the reading taken lag_steps successful reads earlier, and ticks before that are quiet |
| ControlProperties.ReadingsSnoc | main_script.py:226 | A tick adds its solar reading to the history exactly when both readings are in |
| ControlProperties.RunFailCount | main_script.py:211-224 | The failure count is the number of trailing failed reads, restarted at each failsafe |
| ControlProperties.FailsafeEveryThird | main_script.py:214-220 | From start-up, the failsafe fires exactly on every third consecutive failed read |
| ControlProperties.HysteresisTicks | main_script.py:339-377 | The three ticks of the worked example, one by one |
| ControlProperties.HysteresisExample | main_script.py:339-377 | A pump off for an hour stays off at delta 5, is switched on at delta 7, and is switched off at delta 3 once 30 minutes are up |
| ControlProperties.SafetyExample | main_script.py:239-285 | At 105 °F with pump and heater on, within the minimum ON time, both are switched off |
| PumpController.Controller.constructor | main_script.py:43-51 | The globals start undecided, with no failures and an empty buffer |
| PumpController.Controller.Tick | main_script.py:205-378 | One pass of the loop body updates the globals and issues commands and a record exactly as `Step` says, and keeps the invariant |
| PumpController.Controller.CountReadFailure | main_script.py:211-222 | The failure branch in place, as `ReadFailure` says, and keeps the invariant |
| PumpController.Controller.PushReading | main_script.py:226 | The deque append in place, as `Pushed` says, and keeps the invariant |
| PumpController.Controller.DecideTick | main_script.py:239-378 | The rules after a full buffer, in place, as `Decide` says, and keeps the invariant |
| PumpController.Controller.ShutDown | main_script.py:239-285 | The safety ceiling in place, as `SafetyShutdown` says, and keeps the invariant |
| PumpController.Controller.KeepPumpOffForHeater | main_script.py:287-315 | The heater override in place, as `HeaterOverride` says, and keeps the invariant |
| PumpController.Controller.ApplyHysteresis | main_script.py:339-377 | The hysteresis rule and its record in place, as `Hysteresis` says, and keeps the invariant |
| PumpController.Controller.RunTicks | main_script.py:193-378 | The loop over a finite sequence of ticks leaves the globals as `Run` says, and returns each tick's output as `RunOutputs` says |

## Left out

- Running the sensor tool as a subprocess is an input, not modelled: each tick's two readings are given, or the script's `str(result)` of the completed process is given to `ReadTemperatures`. The offsets 159 and 104 are positions in that printed text, not in the tool's raw standard output.
- Smart-plug access is an input or an output, not modelled. `check_heater_state` is the tick's `heaterOn` input. `control_pump` and `control_heater` are the commands a tick issues, and the plugs' own "already in the desired state" check is not modelled.
- `send_to_google_sheet` is a `DecisionRecord` in the output. The HTTP request, its timeout and its emoji encoding of the states are not modelled. The delta argument is kept in the record even though the request does not send it.
- Console and log-file output is not modelled: the daily log roll-over, `TeeLogger` and `print_header`.
- `time.sleep` and the wall clock are not modelled. The clock is each tick's `now`, in whole seconds of naive local time, and nothing is assumed about how it moves between ticks. Clock jumps (daylight-saving changes, corrections) are not modelled as such: the minimum ON and OFF times are proved in wall-clock minutes, so a clock that jumps forward can let the pump switch after fewer real minutes, and one that steps back gives negative elapsed times.
- `KeyboardInterrupt` and the catch-all exception handler are not modelled. An exception from a plug or the network, which would abandon a tick half-way, is not modelled either.
- Floating point is not modelled. Temperatures are exact reals, and `round(fahrenheit, 2)` is not applied. `format_duration`'s `int()` and `%` are modelled exactly on reals.
- `\d` is modelled as ASCII digits only; Python's `re` also accepts other Unicode decimal digits.
- Python's `int()` on text other than a run of ASCII digits (surrounding whitespace, a sign, underscores) is not modelled: `Decimal.ParseNat` gives None there, and the script only ever passes it the `\d+` group of a match.
- `lag_steps` is a parameter of the controller. The script computes it as 0 from `SOLAR_LAG_SEC = 0` and `interval = 600`, and that rounding is not modelled.
- Duration.FormatDurationRoundTrip: excludes minutes strictly between 1 and 2. There the script prints "1 minutes", which reads back as no duration; `Duration.FractionalOneMinute` states that case.
- Duration.FormatDurationRoundTrip: also excludes negative minutes, which a wall clock that steps back produces for the elapsed times of the duration column and the minimum-time notes. There the script prints `f"{int(m)} minutes"`, and `ParseDuration` reads no sign: at or below -1 the text does not read back (`Duration.NegativeMinutesUnreadable`), and between -1 and 0 it prints and reads back as 0 minutes.
- `calibration_log.py`, `local_temp_logger.py`, `run_govee_command.py` and `GoogleSheetScript.js` are not part of this model.

=== FILE: control_props.dfy ===
/**
 * Properties of one tick of the controller and of runs of the main loop.
 */
module ControlProperties {
  import opened Options
  import opened Duration
  import opened ControlSpec

  /** A tick at which at least one of the two temperatures could not be read. */
  predicate Failed(x: Sample) {
    x.tub.None? || x.solarRaw.None?
  }

  /** A failed read that reaches the consecutive-failure threshold. */
  predicate Failsafe(s: State, x: Sample) {
    Failed(x) && s.readFailCount + 1 >= FAILSAFE_THRESHOLD
  }

  /** Both readings are in and the lag buffer will be full after this one is appended. */
  predicate Decides(s: State, lagSteps: nat, x: Sample) {
    !Failed(x) && |s.buffer| >= lagSteps
  }

  /** The surface temperature a deciding tick uses. */
  function Surface(s: State, lagSteps: nat, x: Sample): real
    requires Decides(s, lagSteps, x)
  {
    SurfaceTemp(Pushed(s, lagSteps, x.solarRaw.value), lagSteps, x.solarRaw.value)
  }

  /** Solar minus tub, as a deciding tick computes it. */
  function Delta(s: State, lagSteps: nat, x: Sample): real
    requires Decides(s, lagSteps, x)
  {
    Surface(s, lagSteps, x) - x.tub.value
  }

  /** The state a successful read leaves before any rule runs. */
  function AfterRead(s: State, lagSteps: nat, x: Sample): State
    requires !Failed(x)
  {
    s.(readFailCount := 0, buffer := Pushed(s, lagSteps, x.solarRaw.value))
  }

  /**
   * The pump's timestamps agree with its state: neither is set before the
   * first decision, only the on-time while it is on, only the off-time
   * while it is off.
   */
  predicate TimestampsAgree(s: State) {
    match s.pumpOn
    case None => s.pumpOnTime.None? && s.pumpOffTime.None?
    case Some(on) =>
      if on then s.pumpOnTime.Some? && s.pumpOffTime.None?
      else s.pumpOnTime.None? && s.pumpOffTime.Some?
  }

  /** The invariant of the controller's globals. */
  predicate Good(s: State, lagSteps: nat) {
    TimestampsAgree(s) && s.readFailCount < FAILSAFE_THRESHOLD && |s.buffer| <= lagSteps + 1
  }

  /** The solar readings of the ticks at which both temperatures were read. */
  function Readings(xs: seq<Sample>): seq<real>
    decreases |xs|
  {
    if xs == [] then []
    else
      var last := xs[|xs| - 1];
      Readings(xs[..|xs| - 1]) + (if Failed(last) then [] else [last.solarRaw.value])
  }

  /** The number of failed reads at the end of `xs`. */
  function TrailingFailures(xs: seq<Sample>): nat
    decreases |xs|
  {
    if xs == [] || !Failed(xs[|xs| - 1]) then 0 else TrailingFailures(xs[..|xs| - 1]) + 1
  }

  // ---------------------------------------------------------------------
  // One tick
  // ---------------------------------------------------------------------

  /**
   * A missing reading only counts the failure, commands nothing and logs
   * nothing, until the third in a row, which switches the pump off, marks
   * it off since now and restarts the count. The lag buffer is untouched.
   */
  lemma ReadFailureTick(s: State, lagSteps: nat, x: Sample)
    requires Failed(x)
    ensures var r := Step(s, lagSteps, x);
      r.next.buffer == s.buffer && r.out.heater == NoCommand && r.out.record == None
    ensures var r := Step(s, lagSteps, x);
      !Failsafe(s, x) ==> r.next == s.(readFailCount := s.readFailCount + 1) && r.out.pump == NoCommand
    ensures var r := Step(s, lagSteps, x);
      Failsafe(s, x) ==>
        r.out.pump == PowerOff &&
        r.next == s.(pumpOn := Some(false), pumpOnTime := None, pumpOffTime := Some(x.now), readFailCount := 0)
  {
  }

  /** A successful read restarts the failure count and appends the solar reading to the lag buffer. */
  lemma SuccessfulRead(s: State, lagSteps: nat, x: Sample)
    requires !Failed(x)
    ensures var next := Step(s, lagSteps, x).next;
      next.readFailCount == 0 && next.buffer == Pushed(s, lagSteps, x.solarRaw.value)
  {
  }

  /** How one tick changes the failure count and the lag buffer, whatever rule decides it. */
  lemma StepBookkeeping(s: State, lagSteps: nat, x: Sample)
    ensures var next := Step(s, lagSteps, x).next;
      && next.readFailCount == (if !Failed(x) || s.readFailCount + 1 >= FAILSAFE_THRESHOLD then 0 else s.readFailCount + 1)
      && next.buffer == (if Failed(x) then s.buffer else Pushed(s, lagSteps, x.solarRaw.value))
  {
  }

  /** Until the lag buffer is full a successful tick only fills it: no command, no record. */
  lemma WarmUpTick(s: State, lagSteps: nat, x: Sample)
    requires !Failed(x) && |s.buffer| < lagSteps
    ensures Step(s, lagSteps, x) == StepResult(s.(readFailCount := 0, buffer := s.buffer + [x.solarRaw.value]), Quiet)
  {
  }

  /** A tick logs a record exactly when both readings are in and the lag buffer is full. */
  lemma RecordIffDecides(s: State, lagSteps: nat, x: Sample)
    ensures Step(s, lagSteps, x).out.record.Some? <==> Decides(s, lagSteps, x)
  {
  }

  /** A deciding tick logs the tub reading, the surface temperature it used and their difference. */
  lemma RecordedReadings(s: State, lagSteps: nat, x: Sample)
    requires Decides(s, lagSteps, x)
    ensures var r := Step(s, lagSteps, x);
      && r.out.record.Some?
      && r.out.record.value.tub == x.tub.value
      && r.out.record.value.solar == Surface(s, lagSteps, x)
      && r.out.record.value.delta == Delta(s, lagSteps, x)
  {
  }

  /** The lag buffer never holds more than lag_steps + 1 readings. */
  lemma BufferBounded(s: State, lagSteps: nat, x: Sample)
    requires |s.buffer| <= lagSteps + 1
    ensures |Step(s, lagSteps, x).next.buffer| <= lagSteps + 1
  {
  }

  /**
   * At or above 104 degrees the pump ends the tick off and the heater is
   * switched off if it was on, whatever the dwell timers and delta say; the
   * pump is switched off, and recorded as such, exactly when it was on.
   */
  lemma SafetyCeiling(s: State, lagSteps: nat, x: Sample)
    requires Decides(s, lagSteps, x) && x.tub.value >= MAX_TEMP_F
    ensures var r := Step(s, lagSteps, x);
      var pumpWasOn := s.pumpOn == Some(true);
      && r.next.pumpOn == Some(false)
      && r.out.pump == (if pumpWasOn then PowerOff else NoCommand)
      && r.out.heater == (if x.heaterOn then PowerOff else NoCommand)
      && r.next.pumpOffTime == (if pumpWasOn || s.pumpOffTime.None? then Some(x.now) else s.pumpOffTime)
      && r.next.pumpOnTime == (if pumpWasOn then None else s.pumpOnTime)
    ensures var r := Step(s, lagSteps, x);
      var pumpWasOn := s.pumpOn == Some(true);
      && r.out.record.Some?
      && r.out.record.value.action == (if pumpWasOn then TurnedOff else NoChange)
      && r.out.record.value.note == SafetyNote(pumpWasOn, x.heaterOn)
      && !r.out.record.value.pumpOn && !r.out.record.value.heaterOn
  {
  }

  /**
   * Below the ceiling, a running heater keeps the pump off and restarts its
   * off-time, whatever the dwell timers and delta say; the pump is switched
   * off exactly when it was on, and the heater is left alone.
   */
  lemma HeaterOverrides(s: State, lagSteps: nat, x: Sample)
    requires Decides(s, lagSteps, x) && x.tub.value < MAX_TEMP_F && x.heaterOn
    ensures var r := Step(s, lagSteps, x);
      var pumpWasOn := s.pumpOn == Some(true);
      && r.next == AfterRead(s, lagSteps, x).(pumpOn := Some(false), pumpOnTime := None, pumpOffTime := Some(x.now))
      && r.out.pump == (if pumpWasOn then PowerOff else NoCommand)
      && r.out.heater == NoCommand
      && r.out.record.Some?
      && r.out.record.value.action == (if pumpWasOn then TurnedOff else NoChange)
      && r.out.record.value.duration == "0 minutes"
  {
    assert FormatDuration(MinutesSince(x.now, x.now)) == "0 minutes" by {
      assert MinutesSince(x.now, x.now) == 0.0;
      assert Trunc(0.0) == 0;
    }
  }

  /**
   * The pump is switched on exactly when both readings are in, the buffer is
   * full, the tub is below the ceiling, the heater is off, the pump is not
   * on, its minimum OFF time has passed, and delta exceeds 6 degrees.
   */
  lemma PumpOnIff(s: State, lagSteps: nat, x: Sample)
    ensures Step(s, lagSteps, x).out.pump == PowerOn <==>
      && Decides(s, lagSteps, x)
      && x.tub.value < MAX_TEMP_F && !x.heaterOn
      && s.pumpOn != Some(true) && !InMinimumOff(s, x.now)
      && Delta(s, lagSteps, x) > DELTA_ON
  {
  }

  /**
   * The pump is switched off exactly at a failsafe tick, or when it is on
   * and the tick decides with the tub at the ceiling, or the heater on, or
   * its minimum ON time past and delta below 4 degrees.
   */
  lemma PumpOffIff(s: State, lagSteps: nat, x: Sample)
    ensures Step(s, lagSteps, x).out.pump == PowerOff <==>
      || Failsafe(s, x)
      || (&& Decides(s, lagSteps, x)
          && s.pumpOn == Some(true)
          && (|| x.tub.value >= MAX_TEMP_F
              || x.heaterOn
              || (!InMinimumOn(s, x.now) && Delta(s, lagSteps, x) < DELTA_OFF)))
  {
  }

  /** The heater is never switched on by the controller. */
  lemma HeaterNeverSwitchedOn(s: State, lagSteps: nat, x: Sample)
    ensures Step(s, lagSteps, x).out.heater != PowerOn
  {
  }

  /**
   * A deciding tick below the ceiling with the heater off that commands
   * nothing changes no pump state and records No Change.
   */
  lemma NoCommandKeepsPumpState(s: State, lagSteps: nat, x: Sample)
    requires Decides(s, lagSteps, x) && x.tub.value < MAX_TEMP_F && !x.heaterOn
    requires Step(s, lagSteps, x).out.pump == NoCommand
    ensures var r := Step(s, lagSteps, x);
      r.next == AfterRead(s, lagSteps, x) && r.out.record.Some? && r.out.record.value.action == NoChange
  {
  }

  /**
   * The logged action agrees with the pump command, and the command with the
   * pump state the tick leaves: switched on means on, switched off means off.
   */
  lemma ActionMatchesCommand(s: State, lagSteps: nat, x: Sample)
    ensures var r := Step(s, lagSteps, x);
      r.out.record.Some? ==>
        && (r.out.record.value.action == TurnedOn <==> r.out.pump == PowerOn)
        && (r.out.record.value.action == TurnedOff <==> r.out.pump == PowerOff)
    ensures var r := Step(s, lagSteps, x);
      && (r.out.pump == PowerOn ==> r.next.pumpOn == Some(true))
      && (r.out.pump == PowerOff ==> r.next.pumpOn == Some(false))
      && (r.out.pump == NoCommand && !Failed(x) && s.pumpOn == Some(true) ==> r.next.pumpOn == Some(true))
  {
  }

  /**
   * A recorded pump state is the one the tick leaves behind, and its
   * duration is how long the pump has been in it when that is known; this
   * holds for every rule, the safety ceiling included.
   */
  lemma RecordReportsNewState(s: State, lagSteps: nat, x: Sample)
    requires Decides(s, lagSteps, x)
    ensures var r := Step(s, lagSteps, x);
      && r.out.record.Some?
      && r.out.record.value.pumpOn == (r.next.pumpOn == Some(true))
      && r.out.record.value.duration == StateDuration(r.next, x.now)
  {
  }

  /** Every tick keeps the invariant of the controller's globals. */
  lemma StepKeepsGood(s: State, lagSteps: nat, x: Sample)
    requires Good(s, lagSteps)
    ensures Good(Step(s, lagSteps, x).next, lagSteps)
  {
  }

  /** Once decided, the pump state is never undecided again. */
  lemma DecidedStaysDecided(s: State, lagSteps: nat, x: Sample)
    requires s.pumpOn.Some?
    ensures Step(s, lagSteps, x).next.pumpOn.Some?
  {
  }

  /**
   * A switch stamps the tick's clock: switching on stores `now` as the
   * on-time and clears the off-time, switching off does the reverse.
   */
  lemma SwitchStampsNow(s: State, lagSteps: nat, x: Sample)
    ensures var r := Step(s, lagSteps, x);
      && (r.out.pump == PowerOn ==> r.next.pumpOnTime == Some(x.now) && r.next.pumpOffTime == None)
      && (r.out.pump == PowerOff ==> r.next.pumpOffTime == Some(x.now) && r.next.pumpOnTime == None)
  {
  }

  /** A tick that leaves a running pump on keeps the time it was switched on. */
  lemma StaysOnKeepsOnTime(s: State, lagSteps: nat, x: Sample)
    requires s.pumpOn == Some(true)
    ensures var r := Step(s, lagSteps, x);
      r.next.pumpOn == Some(true) ==> r.next.pumpOnTime == s.pumpOnTime
  {
  }

  /**
   * The note a running heater logs: "pump turned off" exactly when the pump
   * was on, "pump kept off" otherwise.
   */
  lemma HeaterNote(s: State, lagSteps: nat, x: Sample)
    requires Decides(s, lagSteps, x) && x.tub.value < MAX_TEMP_F && x.heaterOn
    ensures var r := Step(s, lagSteps, x);
      && r.out.record.Some?
      && (r.out.record.value.note == NOTE_HEATER_TURNED_OFF <==> s.pumpOn == Some(true))
      && (r.out.record.value.note == NOTE_HEATER_KEPT_OFF <==> s.pumpOn != Some(true))
  {
  }

  /**
   * Below the ceiling with the heater off, the minimum ON note is logged
   * exactly within the minimum ON time, and the minimum OFF note exactly
   * within the minimum OFF time.
   */
  lemma DwellNotes(s: State, lagSteps: nat, x: Sample)
    requires Decides(s, lagSteps, x) && x.tub.value < MAX_TEMP_F && !x.heaterOn
    ensures var r := Step(s, lagSteps, x);
      && r.out.record.Some?
      && (r.out.record.value.note == NOTE_MIN_ON <==> InMinimumOn(s, x.now))
      && (r.out.record.value.note == NOTE_MIN_OFF <==> InMinimumOff(s, x.now))
  {
  }

  /**
   * Past the minimum times, the hysteresis note: switched on above 6
   * degrees, switched off below 4, "solar colder" for a pump not on at a
   * delta of at most 0, "stays on" for a running pump at 4 or more, and
   * "within hysteresis range" only for a pump not on with delta in (0, 6].
   */
  lemma HysteresisNotes(s: State, lagSteps: nat, x: Sample)
    requires Decides(s, lagSteps, x) && x.tub.value < MAX_TEMP_F && !x.heaterOn
    ensures var r := Step(s, lagSteps, x);
      var d := Delta(s, lagSteps, x);
      var free := !InMinimumOn(s, x.now) && !InMinimumOff(s, x.now);
      var isOn := s.pumpOn == Some(true);
      && r.out.record.Some?
      && (r.out.record.value.note == NOTE_TURNED_ON <==> free && !isOn && d > DELTA_ON)
      && (r.out.record.value.note == NOTE_TURNED_OFF <==> free && isOn && d < DELTA_OFF)
      && (r.out.record.value.note == NOTE_SOLAR_COLDER <==> free && !isOn && d <= 0.0)
      && (r.out.record.value.note == NOTE_STAYS_ON <==> free && isOn && d >= DELTA_OFF)
      && (r.out.record.value.note == NOTE_BAND <==> free && !isOn && 0.0 < d <= DELTA_ON)
  {
  }

  /**
   * No short cycling ON to OFF: a pump that was switched on is switched off
   * before 30 minutes only by the ceiling, the heater or the failsafe.
   */
  lemma MinimumOnRespected(s: State, lagSteps: nat, x: Sample)
    requires TimestampsAgree(s) && s.pumpOn == Some(true)
    requires !Failed(x) && x.tub.value < MAX_TEMP_F && !x.heaterOn
    requires Step(s, lagSteps, x).next.pumpOn == Some(false)
    ensures MinutesSince(x.now, s.pumpOnTime.value) >= MIN_ON_MINUTES
  {
  }

  /** No short cycling OFF to ON: a pump switched off stays off for at least 20 minutes. */
  lemma MinimumOffRespected(s: State, lagSteps: nat, x: Sample)
    requires TimestampsAgree(s) && s.pumpOn == Some(false)
    requires Step(s, lagSteps, x).next.pumpOn == Some(true)
    ensures MinutesSince(x.now, s.pumpOffTime.value) >= MIN_OFF_MINUTES
  {
  }

  // ---------------------------------------------------------------------
  // Runs of the main loop
  // ---------------------------------------------------------------------

  lemma {:induction false} RunKeepsGood(s: State, lagSteps: nat, xs: seq<Sample>)
    requires Good(s, lagSteps)
    ensures Good(Run(s, lagSteps, xs), lagSteps)
    decreases |xs|
  {
    if xs != [] {
      RunKeepsGood(s, lagSteps, xs[..|xs| - 1]);
      StepKeepsGood(Run(s, lagSteps, xs[..|xs| - 1]), lagSteps, xs[|xs| - 1]);
    }
  }

  /** Appending to a bounded buffer and trimming it is the same as trimming the whole history. */
  lemma LastNPush(h: seq<real>, n: nat, v: real)
    ensures LastN(LastN(h, n) + [v], n) == LastN(h + [v], n)
  {
    if |h| > n {
      var t := LastN(h, n);
      assert |LastN(t + [v], n)| == n == |LastN(h + [v], n)|;
      forall i | 0 <= i < n
        ensures LastN(t + [v], n)[i] == LastN(h + [v], n)[i]
      {
      }
    }
  }

  /** The lag buffer always holds the last lag_steps + 1 successful solar readings. */
  lemma {:induction false} RunBuffer(s: State, lagSteps: nat, xs: seq<Sample>)
    requires |s.buffer| <= lagSteps + 1
    ensures Run(s, lagSteps, xs).buffer == LastN(s.buffer + Readings(xs), lagSteps + 1)
    decreases |xs|
  {
    if xs == [] {
      assert s.buffer + Readings(xs) == s.buffer;
    } else {
      var before := xs[..|xs| - 1];
      var x := xs[|xs| - 1];
      RunBuffer(s, lagSteps, before);
      StepBookkeeping(Run(s, lagSteps, before), lagSteps, x);
      var h := s.buffer + Readings(before);
      assert Readings(xs) == Readings(before) + (if Failed(x) then [] else [x.solarRaw.value]);
      if !Failed(x) {
        LastNPush(h, lagSteps + 1, x.solarRaw.value);
        assert h + [x.solarRaw.value] == s.buffer + Readings(xs);
      } else {
        assert h == s.buffer + Readings(xs);
      }
    }
  }

  /**
   * The surface temperature is the reading lag_steps successful reads back:
   * from the start, a successful tick stays quiet while it has seen at most
   * lag_steps readings before this one, and afterwards logs the reading
   * taken lag_steps successful reads ago.
   */
  lemma LaggedSurface(lagSteps: nat, xs: seq<Sample>, x: Sample)
    requires !Failed(x)
    ensures var h := Readings(xs + [x]);
      var r := Step(Run(Initial, lagSteps, xs), lagSteps, x);
      && (|h| <= lagSteps ==> r.out == Quiet)
      && (|h| > lagSteps ==> r.out.record.Some? && r.out.record.value.solar == h[|h| - 1 - lagSteps])
  {
    var s := Run(Initial, lagSteps, xs);
    var v := x.solarRaw.value;
    var readings := Readings(xs);
    var h := readings + [v];
    assert Readings(xs + [x]) == h by {
      ReadingsSnoc(xs, x);
    }
    assert s.buffer == LastN(readings, lagSteps + 1) by {
      RunBuffer(Initial, lagSteps, xs);
      assert Initial.buffer + readings == readings;
    }
    var pushed := Pushed(s, lagSteps, v);
    assert pushed == LastN(h, lagSteps + 1) by {
      LastNPush(readings, lagSteps + 1, v);
    }
    if |h| <= lagSteps {
      WarmUpTick(s, lagSteps, x);
    } else {
      RecordedReadings(s, lagSteps, x);
      assert SurfaceTemp(pushed, lagSteps, v) == h[|h| - 1 - lagSteps];
    }
  }

  lemma ReadingsSnoc(xs: seq<Sample>, x: Sample)
    ensures Readings(xs + [x]) == Readings(xs) + (if Failed(x) then [] else [x.solarRaw.value])
  {
    assert (xs + [x])[..|xs|] == xs;
  }

  /** The failure count is the number of trailing failed reads, restarted at each failsafe. */
  lemma {:induction false} RunFailCount(s: State, lagSteps: nat, xs: seq<Sample>)
    requires s.readFailCount < FAILSAFE_THRESHOLD
    ensures Run(s, lagSteps, xs).readFailCount ==
      (if TrailingFailures(xs) == |xs| then s.readFailCount + |xs| else TrailingFailures(xs)) % FAILSAFE_THRESHOLD
    decreases |xs|
  {
    if xs != [] {
      var before := xs[..|xs| - 1];
      RunFailCount(s, lagSteps, before);
      StepBookkeeping(Run(s, lagSteps, before), lagSteps, xs[|xs| - 1]);
    }
  }

  /**
   * From the initial state, a failed read triggers the failsafe exactly when
   * it ends a run of failed reads whose length is a multiple of three.
   */
  lemma FailsafeEveryThird(lagSteps: nat, xs: seq<Sample>, x: Sample)
    requires Failed(x)
    ensures Failsafe(Run(Initial, lagSteps, xs), x) <==> TrailingFailures(xs + [x]) % FAILSAFE_THRESHOLD == 0
  {
    RunFailCount(Initial, lagSteps, xs);
    assert (xs + [x])[..|xs|] == xs;
    assert TrailingFailures(xs + [x]) == TrailingFailures(xs) + 1;
  }

  // ---------------------------------------------------------------------
  // Examples
  // ---------------------------------------------------------------------

  /**
   * Without lag, a pump long off sees delta 5, then 7 ten minutes later,
   * then 3 thirty minutes after that: it stays off, is switched on, then is
   * switched off once its 30 minutes are up.
   */
  lemma HysteresisExample()
    ensures var s0 := State(Some(false), None, Some(-3600), 0, []);
      var xs := [Sample(Some(80.0), Some(85.0), false, 0),
                 Sample(Some(80.0), Some(87.0), false, 600),
                 Sample(Some(80.0), Some(83.0), false, 2400)];
      RunOutputs(s0, 0, xs) == [
        Output(NoCommand, NoCommand, Some(DecisionRecord(80.0, 85.0, 5.0, false, NoChange, NOTE_BAND, false, "1 hour"))),
        Output(PowerOn, NoCommand, Some(DecisionRecord(80.0, 87.0, 7.0, true, TurnedOn, NOTE_TURNED_ON, false, "0 minutes"))),
        Output(PowerOff, NoCommand, Some(DecisionRecord(80.0, 83.0, 3.0, false, TurnedOff, NOTE_TURNED_OFF, false, "0 minutes")))]
  {
    var s0 := State(Some(false), None, Some(-3600), 0, []);
    var xs := [Sample(Some(80.0), Some(85.0), false, 0),
               Sample(Some(80.0), Some(87.0), false, 600),
               Sample(Some(80.0), Some(83.0), false, 2400)];
    var s1 := State(Some(false), None, Some(-3600), 0, [85.0]);
    var s2 := State(Some(true), Some(600), None, 0, [87.0]);
    HysteresisTicks();
    assert Run(s0, 0, xs[..1]) == s1 by {
      assert xs[..1][..0] == [];
    }
    assert Run(s0, 0, xs[..2]) == s2 by {
      assert xs[..2][..1] == xs[..1];
    }
    assert RunOutputs(s0, 0, xs[..1]) == [RunOutputs(s0, 0, xs)[0]] by {
      assert xs[..1][..0] == [];
    }
    assert RunOutputs(s0, 0, xs[..2]) == RunOutputs(s0, 0, xs)[..2] by {
      assert xs[..2][..1] == xs[..1];
    }
  }

  /** The three ticks of the example above, one at a time. */
  lemma HysteresisTicks()
    ensures Step(State(Some(false), None, Some(-3600), 0, []), 0, Sample(Some(80.0), Some(85.0), false, 0)) ==
      StepResult(State(Some(false), None, Some(-3600), 0, [85.0]),
        Output(NoCommand, NoCommand, Some(DecisionRecord(80.0, 85.0, 5.0, false, NoChange, NOTE_BAND, false, "1 hour"))))
    ensures Step(State(Some(false), None, Some(-3600), 0, [85.0]), 0, Sample(Some(80.0), Some(87.0), false, 600)) ==
      StepResult(State(Some(true), Some(600), None, 0, [87.0]),
        Output(PowerOn, NoCommand, Some(DecisionRecord(80.0, 87.0, 7.0, true, TurnedOn, NOTE_TURNED_ON, false, "0 minutes"))))
    ensures Step(State(Some(true), Some(600), None, 0, [87.0]), 0, Sample(Some(80.0), Some(83.0), false, 2400)) ==
      StepResult(State(Some(false), None, Some(2400), 0, [83.0]),
        Output(PowerOff, NoCommand, Some(DecisionRecord(80.0, 83.0, 3.0, false, TurnedOff, NOTE_TURNED_OFF, false, "0 minutes"))))
  {
    var s0 := State(Some(false), None, Some(-3600), 0, []);
    var x1 := Sample(Some(80.0), Some(85.0), false, 0);
    var x2 := Sample(Some(80.0), Some(87.0), false, 600);
    var x3 := Sample(Some(80.0), Some(83.0), false, 2400);
    var o1 := Output(NoCommand, NoCommand, Some(DecisionRecord(80.0, 85.0, 5.0, false, NoChange, NOTE_BAND, false, "1 hour")));
    var o2 := Output(PowerOn, NoCommand, Some(DecisionRecord(80.0, 87.0, 7.0, true, TurnedOn, NOTE_TURNED_ON, false, "0 minutes")));
    var o3 := Output(PowerOff, NoCommand, Some(DecisionRecord(80.0, 83.0, 3.0, false, TurnedOff, NOTE_TURNED_OFF, false, "0 minutes")));
    var s1 := s0.(buffer := [85.0]);
    var s2 := State(Some(true), Some(600), None, 0, [87.0]);
    var s3 := State(Some(false), None, Some(2400), 0, [83.0]);
    assert FormatDuration(0.0) == "0 minutes" by {
      assert Trunc(0.0) == 0;
    }
    // Off for an hour, delta 5: inside the band.
    assert Step(s0, 0, x1) == StepResult(s1, o1) by {
      assert FormatDuration(60.0) == "1 hour" by {
        FormatHours(60);
        NatToStringOne();
      }
      assert Pushed(s0, 0, 85.0) == [85.0];
      assert Step(s0, 0, x1) == Hysteresis(s1, 80.0, 85.0, false, 0);
    }
    // Delta 7: switched on.
    assert Step(s1, 0, x2) == StepResult(s2, o2) by {
      assert Pushed(s1, 0, 87.0) == [87.0];
      assert Step(s1, 0, x2) == Hysteresis(s1.(buffer := [87.0]), 80.0, 87.0, false, 600);
    }
    // Thirty minutes on, delta 3: switched off.
    assert Step(s2, 0, x3) == StepResult(s3, o3) by {
      assert Pushed(s2, 0, 83.0) == [83.0];
      assert Step(s2, 0, x3) == Hysteresis(s2.(buffer := [83.0]), 80.0, 83.0, false, 2400);
    }
  }

  /**
   * At 105 degrees with the pump and the heater both on, even within the
   * pump's minimum ON time, both are switched off.
   */
  lemma SafetyExample()
    ensures var s := State(Some(true), Some(0), None, 0, []);
      var r := Step(s, 0, Sample(Some(105.0), Some(120.0), true, 600));
      && r.out.pump == PowerOff && r.out.heater == PowerOff
      && r.next.pumpOn == Some(false) && r.next.pumpOffTime == Some(600)
      && r.out.record.Some? && r.out.record.value.action == TurnedOff
      && r.out.record.value.note == SafetyNote(true, true)
  {
    var s := State(Some(true), Some(0), None, 0, []);
    assert Pushed(s, 0, 120.0) == [120.0];
  }
}

=== FILE: control_spec.dfy ===
/**
 * The pump and heater decision made on each pass of the controller's main
 * loop (main_script.py), as a function from the controller's state and one
 * tick's inputs to its next state and what the tick commands and reports.
 *
 * The rules are tried in a fixed order and the first that applies ends the
 * tick: missing readings (with a failsafe after three in a row), warm-up of
 * the solar lag buffer, the absolute temperature ceiling, the heater
 * override, the minimum ON and OFF dwell times, and hysteresis on
 * delta = solar - tub.
 *
 * Temperatures are exact degrees Fahrenheit, times are whole seconds.
 */
module ControlSpec {
  import opened Options
  import opened Duration

  const DELTA_ON: real := 6.0
  const DELTA_OFF: real := 4.0
  const MIN_ON_MINUTES: real := 30.0
  const MIN_OFF_MINUTES: real := 20.0
  const MAX_TEMP_F: real := 104.0
  const FAILSAFE_THRESHOLD: nat := 3

  /** What a tick asks of a smart plug: nothing, switch it on, or switch it off. */
  datatype Command = NoCommand | PowerOn | PowerOff

  datatype Action = TurnedOn | TurnedOff | NoChange

  /** The action column of the decision log. */
  function ActionLabel(a: Action): string {
    match a
    case TurnedOn => "ON"
    case TurnedOff => "OFF"
    case NoChange => "No Change"
  }

  /** The labels are distinct, so the logged text determines the action. */
  lemma ActionLabelInjective(a: Action, b: Action)
    requires ActionLabel(a) == ActionLabel(b)
    ensures a == b
  {
  }

  /** One row sent to the decision log: the arguments of `send_to_google_sheet`. */
  datatype DecisionRecord = DecisionRecord(
    tub: real,
    solar: real,
    delta: real,
    pumpOn: bool,
    action: Action,
    note: string,
    heaterOn: bool,
    duration: string)

  datatype Output = Output(pump: Command, heater: Command, record: Option<DecisionRecord>)

  /** A tick that commands nothing and logs nothing. */
  const Quiet: Output := Output(NoCommand, NoCommand, None)

  /**
   * The controller's globals: the pump state as last decided (None before
   * the first decision), when it was last switched on or off, the number of
   * consecutive failed reads, and the solar lag buffer, oldest reading first.
   */
  datatype State = State(
    pumpOn: Option<bool>,
    pumpOnTime: Option<int>,
    pumpOffTime: Option<int>,
    readFailCount: nat,
    buffer: seq<real>)

  const Initial: State := State(None, None, None, 0, [])

  /** One tick's inputs: the two readings (None when missing), the heater plug's state and the clock. */
  datatype Sample = Sample(tub: Option<real>, solarRaw: Option<real>, heaterOn: bool, now: int)

  datatype StepResult = StepResult(next: State, out: Output)

  // Notes written to the decision log.
  const DASH: string := " \U{2014} "
  const NOTE_MIN_ON: string := "Within minimum ON time"
  const NOTE_MIN_OFF: string := "Within minimum OFF time"
  const NOTE_HEATER_TURNED_OFF: string := "Heater active" + DASH + "pump turned off"
  const NOTE_HEATER_KEPT_OFF: string := "Heater active" + DASH + "pump kept off"
  const NOTE_TURNED_ON: string := "\U{0394} > 6.0\U{00B0}F \U{2192} pump turned on"
  const NOTE_TURNED_OFF: string := "\U{0394} < 4.0\U{00B0}F \U{2192} pump turned off"
  const NOTE_SOLAR_COLDER: string := "Solar colder" + DASH + "pump remains off"
  const NOTE_STAYS_ON: string := "Solar still warmer" + DASH + "pump stays on"
  const NOTE_BAND: string := "Within hysteresis range"

  function SafetyNote(pumpWasOn: bool, heaterWasOn: bool): string {
    "Safety shutdown at 104\U{00B0}F"
      + DASH + (if pumpWasOn then "pump switched off" else "pump already off")
      + DASH + (if heaterWasOn then "heater switched off" else "heater already off")
  }

  /** Minutes from `since` to `now`, as `(now - since).total_seconds() / 60`. */
  function MinutesSince(now: int, since: int): real {
    (now - since) as real / 60.0
  }

  /** The last `n` elements of `s`: what a `deque(maxlen=n)` holds after `s` was appended to it. */
  function LastN(s: seq<real>, n: nat): seq<real> {
    if |s| <= n then s else s[|s| - n..]
  }

  /** The lag buffer after a successful reading is appended. */
  function Pushed(s: State, lagSteps: nat, raw: real): seq<real> {
    LastN(s.buffer + [raw], lagSteps + 1)
  }

  /** The surface temperature used once the buffer is full: its oldest reading, or the raw one without lag. */
  function SurfaceTemp(buffer: seq<real>, lagSteps: nat, raw: real): real
    requires buffer != []
  {
    if lagSteps > 0 then buffer[0] else raw
  }

  predicate InMinimumOn(s: State, now: int) {
    s.pumpOn == Some(true) && s.pumpOnTime.Some? && MinutesSince(now, s.pumpOnTime.value) < MIN_ON_MINUTES
  }

  predicate InMinimumOff(s: State, now: int) {
    s.pumpOn != Some(true) && s.pumpOffTime.Some? && MinutesSince(now, s.pumpOffTime.value) < MIN_OFF_MINUTES
  }

  /** The duration column: how long the pump has been in its present state, when known. */
  function StateDuration(s: State, now: int): string {
    if s.pumpOn == Some(true) && s.pumpOnTime.Some? then FormatDuration(MinutesSince(now, s.pumpOnTime.value))
    else if s.pumpOn != Some(true) && s.pumpOffTime.Some? then FormatDuration(MinutesSince(now, s.pumpOffTime.value))
    else ""
  }

  /** One tick of the main loop. */
  function Step(s: State, lagSteps: nat, x: Sample): StepResult {
    if x.tub.None? || x.solarRaw.None? then ReadFailure(s, x.now)
    else
      var buffer := Pushed(s, lagSteps, x.solarRaw.value);
      var s' := s.(readFailCount := 0, buffer := buffer);
      if |buffer| < lagSteps + 1 then StepResult(s', Quiet)
      else Decide(s', x.tub.value, SurfaceTemp(buffer, lagSteps, x.solarRaw.value), x.heaterOn, x.now)
  }

  /** A tick with a missing reading: count it, and switch the pump off at the failsafe threshold. */
  function ReadFailure(s: State, now: int): StepResult {
    var count := s.readFailCount + 1;
    if count >= FAILSAFE_THRESHOLD then
      StepResult(
        s.(pumpOn := Some(false), pumpOnTime := None, pumpOffTime := Some(now), readFailCount := 0),
        Output(PowerOff, NoCommand, None))
    else
      StepResult(s.(readFailCount := count), Quiet)
  }

  /** The rules applied once both readings are in and the lag buffer is full. */
  function Decide(s: State, tub: real, solar: real, heaterOn: bool, now: int): StepResult {
    var delta := solar - tub;
    if tub >= MAX_TEMP_F then SafetyShutdown(s, tub, solar, heaterOn, now)
    else if heaterOn then HeaterOverride(s, tub, solar, now)
    else if InMinimumOn(s, now) then
      var record := DecisionRecord(tub, solar, delta, true, NoChange, NOTE_MIN_ON, heaterOn,
        FormatDuration(MinutesSince(now, s.pumpOnTime.value)));
      StepResult(s, Output(NoCommand, NoCommand, Some(record)))
    else if InMinimumOff(s, now) then
      var record := DecisionRecord(tub, solar, delta, false, NoChange, NOTE_MIN_OFF, heaterOn,
        FormatDuration(MinutesSince(now, s.pumpOffTime.value)));
      StepResult(s, Output(NoCommand, NoCommand, Some(record)))
    else Hysteresis(s, tub, solar, heaterOn, now)
  }

  /**
   * At or above the ceiling: the pump is off afterwards and the heater is
   * switched off if it was on. The pump's on-time is cleared, and its
   * off-time set, only when it was on (the off-time also when it was unset).
   */
  function SafetyShutdown(s: State, tub: real, solar: real, heaterOn: bool, now: int): StepResult {
    var pumpWasOn := s.pumpOn == Some(true);
    var offTime := if pumpWasOn || s.pumpOffTime.None? then now else s.pumpOffTime.value;
    var next := s.(
      pumpOn := Some(false),
      pumpOnTime := if pumpWasOn then None else s.pumpOnTime,
      pumpOffTime := Some(offTime));
    var record := DecisionRecord(tub, solar, solar - tub, false, if pumpWasOn then TurnedOff else NoChange,
      SafetyNote(pumpWasOn, heaterOn), false, FormatDuration(MinutesSince(now, offTime)));
    StepResult(next, Output(
      if pumpWasOn then PowerOff else NoCommand,
      if heaterOn then PowerOff else NoCommand,
      Some(record)))
  }

  /** The heater is on: the pump is kept off and its off-time restarted, whatever its dwell. */
  function HeaterOverride(s: State, tub: real, solar: real, now: int): StepResult {
    var pumpWasOn := s.pumpOn == Some(true);
    var next := s.(pumpOn := Some(false), pumpOffTime := Some(now), pumpOnTime := None);
    var record := DecisionRecord(tub, solar, solar - tub, false, if pumpWasOn then TurnedOff else NoChange,
      if pumpWasOn then NOTE_HEATER_TURNED_OFF else NOTE_HEATER_KEPT_OFF, true,
      FormatDuration(MinutesSince(now, now)));
    StepResult(next, Output(if pumpWasOn then PowerOff else NoCommand, NoCommand, Some(record)))
  }

  /** The hysteresis rule on delta = solar - tub, with the record it logs. */
  function Hysteresis(s: State, tub: real, solar: real, heaterOn: bool, now: int): StepResult {
    var delta := solar - tub;
    var isOn := s.pumpOn == Some(true);
    if !isOn && delta > DELTA_ON then
      Logged(s.(pumpOn := Some(true), pumpOnTime := Some(now), pumpOffTime := None),
        PowerOn, TurnedOn, NOTE_TURNED_ON, tub, solar, heaterOn, now)
    else if isOn && delta < DELTA_OFF then
      Logged(s.(pumpOn := Some(false), pumpOffTime := Some(now), pumpOnTime := None),
        PowerOff, TurnedOff, NOTE_TURNED_OFF, tub, solar, heaterOn, now)
    else if !isOn && delta <= 0.0 then
      Logged(s, NoCommand, NoChange, NOTE_SOLAR_COLDER, tub, solar, heaterOn, now)
    else if isOn && delta >= 0.0 then
      Logged(s, NoCommand, NoChange, NOTE_STAYS_ON, tub, solar, heaterOn, now)
    else
      Logged(s, NoCommand, NoChange, NOTE_BAND, tub, solar, heaterOn, now)
  }

  function Logged(next: State, pump: Command, action: Action, note: string,
                  tub: real, solar: real, heaterOn: bool, now: int): StepResult
  {
    var record := DecisionRecord(tub, solar, solar - tub, next.pumpOn == Some(true), action, note, heaterOn,
      StateDuration(next, now));
    StepResult(next, Output(pump, NoCommand, Some(record)))
  }

  /** The state after running the main loop over `xs`, first sample first. */
  function Run(s: State, lagSteps: nat, xs: seq<Sample>): State
    decreases |xs|
  {
    if xs == [] then s else Step(Run(s, lagSteps, xs[..|xs| - 1]), lagSteps, xs[|xs| - 1]).next
  }

  /** What each tick of that run commanded and logged. */
  function RunOutputs(s: State, lagSteps: nat, xs: seq<Sample>): seq<Output>
    decreases |xs|
  {
    if xs == [] then []
    else
      var before := xs[..|xs| - 1];
      RunOutputs(s, lagSteps, before) + [Step(Run(s, lagSteps, before), lagSteps, xs[|xs| - 1]).out]
  }
}

=== FILE: controller.dfy ===
/**
 * The controller's globals and its main loop, imperatively: each tick
 * updates the fields in place, rule by rule, in the order of the loop body
 * in main_script.py, and is proved to do exactly what `ControlSpec.Step`
 * describes.
 */
module PumpController {
  import opened Options
  import opened Duration
  import opened ControlSpec
  import opened ControlProperties

  class Controller {
    /** How many ticks the solar reading is delayed by; the buffer holds lagSteps + 1 readings. */
    const lagSteps: nat
    var pumpOnState: Option<bool>
    var pumpOnTime: Option<int>
    var pumpOffTime: Option<int>
    var readFailCount: nat
    var solarBuffer: seq<real>

    /** The fields as a value of the specification's state. */
    function Snapshot(): State
      reads this
    {
      State(pumpOnState, pumpOnTime, pumpOffTime, readFailCount, solarBuffer)
    }

    ghost predicate Valid()
      reads this
    {
      Good(Snapshot(), lagSteps)
    }

    /** The globals as the script starts: nothing decided, nothing read. */
    constructor(lagSteps: nat)
      ensures this.lagSteps == lagSteps && Snapshot() == Initial && Valid()
    {
      this.lagSteps := lagSteps;
      pumpOnState := None;
      pumpOnTime := None;
      pumpOffTime := None;
      readFailCount := 0;
      solarBuffer := [];
    }

    /**
     * One pass of the main loop with the readings (None when missing), the
     * heater plug's state and the clock as inputs; it returns the plug
     * commands it issues and the decision-log record it sends, if any.
     */
    method Tick(tub: Option<real>, solarRaw: Option<real>, heaterOn: bool, now: int)
      returns (pump: Command, heater: Command, record: Option<DecisionRecord>)
      requires Valid()
      modifies this
      ensures Valid()
      ensures Step(old(Snapshot()), lagSteps, Sample(tub, solarRaw, heaterOn, now))
        == StepResult(Snapshot(), Output(pump, heater, record))
    {
      StepKeepsGood(Snapshot(), lagSteps, Sample(tub, solarRaw, heaterOn, now));
      if tub.None? || solarRaw.None? {
        pump, heater, record := CountReadFailure(now);
        return;
      }
      readFailCount := 0;
      PushReading(solarRaw.value);
      if |solarBuffer| < lagSteps + 1 {
        pump, heater, record := NoCommand, NoCommand, None;
        return;
      }

      var surface := if lagSteps > 0 then solarBuffer[0] else solarRaw.value;
      pump, heater, record := DecideTick(tub.value, surface, heaterOn, now);
    }

    /** A tick with a missing reading: count it, and switch the pump off at the failsafe threshold. */
    method CountReadFailure(now: int) returns (pump: Command, heater: Command, record: Option<DecisionRecord>)
      requires Valid()
      modifies this
      ensures Valid()
      ensures ReadFailure(old(Snapshot()), now) == StepResult(Snapshot(), Output(pump, heater, record))
    {
      pump, heater, record := NoCommand, NoCommand, None;
      readFailCount := readFailCount + 1;
      if readFailCount >= FAILSAFE_THRESHOLD {
        pump := PowerOff;
        pumpOnState := Some(false);
        pumpOnTime := None;
        pumpOffTime := Some(now);
        readFailCount := 0;
      }
    }

    /** The bounded deque: append the reading, then drop the oldest once over capacity. */
    method PushReading(raw: real)
      requires Valid()
      modifies this
      ensures Valid()
      ensures Snapshot() == old(Snapshot()).(buffer := Pushed(old(Snapshot()), lagSteps, raw))
    {
      solarBuffer := solarBuffer + [raw];
      if |solarBuffer| > lagSteps + 1 {
        solarBuffer := solarBuffer[1..];
      }
    }

    /** The rules applied once both readings are in and the lag buffer is full. */
    method DecideTick(tub: real, surface: real, heaterOn: bool, now: int)
      returns (pump: Command, heater: Command, record: Option<DecisionRecord>)
      requires Valid()
      modifies this
      ensures Valid()
      ensures Decide(old(Snapshot()), tub, surface, heaterOn, now) == StepResult(Snapshot(), Output(pump, heater, record))
    {
      var delta := surface - tub;
      if tub >= MAX_TEMP_F {
        pump, heater, record := ShutDown(tub, surface, heaterOn, now);
        return;
      }
      if heaterOn {
        pump, record := KeepPumpOffForHeater(tub, surface, now);
        heater := NoCommand;
        return;
      }
      heater := NoCommand;

      if pumpOnState == Some(true) && pumpOnTime.Some? {
        var elapsedOn := MinutesSince(now, pumpOnTime.value);
        if elapsedOn < MIN_ON_MINUTES {
          pump := NoCommand;
          record := Some(DecisionRecord(tub, surface, delta, true, NoChange, NOTE_MIN_ON, heaterOn,
            FormatDuration(elapsedOn)));
          return;
        }
      }

      if pumpOnState != Some(true) && pumpOffTime.Some? {
        var elapsedOff := MinutesSince(now, pumpOffTime.value);
        if elapsedOff < MIN_OFF_MINUTES {
          pump := NoCommand;
          record := Some(DecisionRecord(tub, surface, delta, false, NoChange, NOTE_MIN_OFF, heaterOn,
            FormatDuration(elapsedOff)));
          return;
        }
      }

      pump, record := ApplyHysteresis(tub, surface, heaterOn, now);
    }

    /** The safety ceiling: pump and heater off. */
    method ShutDown(tub: real, surface: real, heaterOn: bool, now: int)
      returns (pump: Command, heater: Command, record: Option<DecisionRecord>)
      requires Valid()
      modifies this
      ensures Valid()
      ensures SafetyShutdown(old(Snapshot()), tub, surface, heaterOn, now) == StepResult(Snapshot(), Output(pump, heater, record))
    {
      pump, heater := NoCommand, NoCommand;
      var pumpWasOn := pumpOnState == Some(true);
      if pumpWasOn {
        pump := PowerOff;
        pumpOffTime := Some(now);
        pumpOnTime := None;
      } else if pumpOffTime.None? {
        pumpOffTime := Some(now);
      }
      pumpOnState := Some(false);
      var heaterWasOn := heaterOn;
      if heaterWasOn {
        heater := PowerOff;
      }
      var action := if pumpWasOn then TurnedOff else NoChange;
      var duration := FormatDuration(MinutesSince(now, pumpOffTime.value));
      record := Some(DecisionRecord(tub, surface, surface - tub, false, action,
        SafetyNote(pumpWasOn, heaterWasOn), false, duration));
    }

    /** The heater override: the pump is kept off and its off-time restarted. */
    method KeepPumpOffForHeater(tub: real, surface: real, now: int)
      returns (pump: Command, record: Option<DecisionRecord>)
      requires Valid()
      modifies this
      ensures Valid()
      ensures HeaterOverride(old(Snapshot()), tub, surface, now) == StepResult(Snapshot(), Output(pump, NoCommand, record))
    {
      var action, note;
      if pumpOnState == Some(true) {
        pump := PowerOff;
        action, note := TurnedOff, NOTE_HEATER_TURNED_OFF;
      } else {
        pump := NoCommand;
        action, note := NoChange, NOTE_HEATER_KEPT_OFF;
      }
      pumpOnState := Some(false);
      pumpOffTime := Some(now);
      pumpOnTime := None;
      var duration := FormatDuration(MinutesSince(now, pumpOffTime.value));
      record := Some(DecisionRecord(tub, surface, surface - tub, false, action, note, true, duration));
    }

    /** The hysteresis rule and the record it logs. */
    method ApplyHysteresis(tub: real, surface: real, heaterOn: bool, now: int)
      returns (pump: Command, record: Option<DecisionRecord>)
      requires Valid()
      modifies this
      ensures Valid()
      ensures Hysteresis(old(Snapshot()), tub, surface, heaterOn, now) == StepResult(Snapshot(), Output(pump, NoCommand, record))
    {
      var delta := surface - tub;
      var action, note;
      pump := NoCommand;
      if pumpOnState != Some(true) && delta > DELTA_ON {
        pump := PowerOn;
        pumpOnState, pumpOnTime, pumpOffTime := Some(true), Some(now), None;
        action, note := TurnedOn, NOTE_TURNED_ON;
      } else if pumpOnState == Some(true) && delta < DELTA_OFF {
        pump := PowerOff;
        pumpOnState, pumpOffTime, pumpOnTime := Some(false), Some(now), None;
        action, note := TurnedOff, NOTE_TURNED_OFF;
      } else if pumpOnState != Some(true) && delta <= 0.0 {
        action, note := NoChange, NOTE_SOLAR_COLDER;
      } else if pumpOnState == Some(true) && delta >= 0.0 {
        action, note := NoChange, NOTE_STAYS_ON;
      } else {
        action, note := NoChange, NOTE_BAND;
      }

      var duration := "";
      if pumpOnState == Some(true) && pumpOnTime.Some? {
        duration := FormatDuration(MinutesSince(now, pumpOnTime.value));
      } else if pumpOnState != Some(true) && pumpOffTime.Some? {
        duration := FormatDuration(MinutesSince(now, pumpOffTime.value));
      }
      record := Some(DecisionRecord(tub, surface, delta, pumpOnState == Some(true), action, note, heaterOn, duration));
    }

    /**
     * The main loop over a finite sequence of ticks' inputs: the fields end
     * as the specification's run leaves them, and each tick's commands and
     * record are returned in order.
     */
    method RunTicks(samples: seq<Sample>) returns (outputs: seq<Output>)
      requires Valid()
      modifies this
      ensures Valid()
      ensures Snapshot() == Run(old(Snapshot()), lagSteps, samples)
      ensures outputs == RunOutputs(old(Snapshot()), lagSteps, samples)
    {
      ghost var s0 := Snapshot();
      outputs := [];
      var i := 0;
      while i < |samples|
        invariant 0 <= i <= |samples|
        invariant Valid()
        invariant Snapshot() == Run(s0, lagSteps, samples[..i])
        invariant outputs == RunOutputs(s0, lagSteps, samples[..i])
      {
        var x := samples[i];
        var pump, heater, record := Tick(x.tub, x.solarRaw, x.heaterOn, x.now);
        assert samples[..i + 1][..i] == samples[..i];
        outputs := outputs + [Output(pump, heater, record)];
        i := i + 1;
      }
      assert samples[..|samples|] == samples;
    }
  }
}

=== FILE: decimal.dfy ===
/**
 * Decimal text for integers: what Python's `f"{n}"` prints for an `int`
 * and what `int(digits)` reads back from a run of ASCII digits.
 */
module Decimal {
  import opened Options

  predicate IsDigit(c: char) {
    '0' <= c <= '9'
  }

  predicate AllDigits(s: string) {
    forall i :: 0 <= i < |s| ==> IsDigit(s[i])
  }

  function DigitChar(d: nat): (c: char)
    requires d < 10
    ensures IsDigit(c) && c as int - '0' as int == d
  {
    ('0' as int + d) as char
  }

  /** The decimal digits of `n`, most significant first, without leading zeros. */
  function NatToString(n: nat): (s: string)
    ensures s != [] && AllDigits(s)
    ensures n < 10 <==> |s| == 1
    decreases n
  {
    if n < 10 then [DigitChar(n)] else NatToString(n / 10) + [DigitChar(n % 10)]
  }

  /** `f"{i}"` for a Python `int`: a minus sign before the digits of a negative number. */
  function IntToString(i: int): (s: string)
    ensures s != [] && ' ' !in s
    ensures i >= 0 ==> s == NatToString(i)
  {
    if i < 0 then "-" + NatToString(-i) else NatToString(i)
  }

  /** The value of a run of digits, read most significant first. */
  function DigitsValue(s: string): nat
    requires AllDigits(s)
  {
    if s == [] then 0 else DigitsValue(s[..|s| - 1]) * 10 + (s[|s| - 1] as int - '0' as int)
  }

  /**
   * `int(s)` for a run of ASCII digits: its value. Only such runs reach `int`
   * in the script (the `\d+` group of a match); None stands for any other
   * text, whatever Python's `int` would make of it.
   */
  function ParseNat(s: string): (r: Option<nat>)
    ensures r.Some? <==> s != [] && AllDigits(s)
  {
    if s != [] && AllDigits(s) then Some(DigitsValue(s)) else None
  }

  /** Reading back the decimal text of a number gives the number. */
  lemma {:induction false} ParseNatToString(n: nat)
    ensures ParseNat(NatToString(n)) == Some(n)
  {
    var s := NatToString(n);
    if n < 10 {
      assert s[..|s| - 1] == [];
    } else {
      ParseNatToString(n / 10);
      assert s[..|s| - 1] == NatToString(n / 10);
      assert DigitsValue(s) == (n / 10) * 10 + n % 10;
    }
  }

  /** Distinct numbers have distinct decimal texts. */
  lemma NatToStringInjective(m: nat, n: nat)
    requires NatToString(m) == NatToString(n)
    ensures m == n
  {
    ParseNatToString(m);
    ParseNatToString(n);
  }
}

=== FILE: duration.dfy ===
/**
 * `format_duration` of the controller script (main_script.py): a number of
 * minutes, as a Python float, turned into "N minutes", "H hours M minutes" or
 * "D days H hours M minutes", with zero parts dropped above an hour and the
 * unit singular for a count of one.
 *
 * Its partner is `ParseDuration`, a reader of that text: it accepts
 * units only in decreasing order, with the number each word agrees with, and
 * with each part below the size of the unit above it. Reading back what
 * `FormatDuration` writes for a non-negative number of minutes gives its
 * whole part, except strictly between 1 and 2 ("1 minutes"); a number of
 * minutes at or below -1 prints with a sign and does not read back.
 */
module Duration {
  import opened Options
  import opened Decimal

  /** Python's `int(x)` on a float: truncation toward zero. */
  function Trunc(x: real): int {
    if x >= 0.0 then x.Floor else -((-x).Floor)
  }

  /** Python's `x % y` on floats for a positive divisor: floored remainder. */
  function FloatMod(x: real, y: real): real
    requires y > 0.0
  {
    x - y * ((x / y).Floor as real)
  }

  /** The unit word for a count: singular for one, plural otherwise. */
  function PluralWord(c: int, unit: string): string {
    if c == 1 then unit else unit + "s"
  }

  /** `f"{n} unit"` for a count of one, `f"{n} units"` otherwise. */
  function CountPhrase(n: int, unit: string): string {
    IntToString(n) + " " + PluralWord(n, unit)
  }

  /** Python's `sep.join(parts)`. */
  function Join(parts: seq<string>, sep: string): string {
    if |parts| == 0 then ""
    else if |parts| == 1 then parts[0]
    else parts[0] + sep + Join(parts[1..], sep)
  }

  /** `format_duration(minutes)`. */
  function FormatDuration(minutes: real): string {
    if minutes < 60.0 then
      if minutes != 1.0 then IntToString(Trunc(minutes)) + " minutes" else "1 minute"
    else if minutes / 60.0 < 24.0 then HoursText(minutes)
    else DaysText(minutes)
  }

  /** The branch for at least an hour and under a day. */
  function HoursText(minutes: real): string {
    HourText(Trunc(minutes / 60.0), Trunc(FloatMod(minutes, 60.0)))
  }

  function HourText(h: int, m: int): string {
    var hourStr := CountPhrase(h, "hour");
    if m > 0 then hourStr + " " + CountPhrase(m, "minute") else hourStr
  }

  /** The branch for a day or more. */
  function DaysText(minutes: real): string {
    var hours := minutes / 60.0;
    DayText(Trunc(hours / 24.0), Trunc(FloatMod(hours, 24.0)), Trunc(FloatMod(minutes, 60.0)))
  }

  function DayText(days: int, remainingHours: int, remainingMinutes: int): string {
    var parts := [CountPhrase(days, "day")]
      + (if remainingHours > 0 then [CountPhrase(remainingHours, "hour")] else [])
      + (if remainingMinutes > 0 then [CountPhrase(remainingMinutes, "minute")] else []);
    Join(parts, " ")
  }

  // ---------------------------------------------------------------------------
  // Reading a duration back

  datatype Unit = Minute | Hour | Day

  function Rank(u: Unit): nat {
    match u
    case Minute => 0
    case Hour => 1
    case Day => 2
  }

  /** How many of `u` make the next larger unit. */
  function Span(u: Unit): nat {
    match u
    case Minute => 60
    case Hour => 24
    case Day => 0
  }

  function PartMinutes(u: Unit, count: nat): nat {
    match u
    case Minute => count
    case Hour => 60 * count
    case Day => 1440 * count
  }

  /** The unit a word names, when the word is singular exactly for a count of one. */
  function UnitWord(count: nat, word: string): Option<Unit> {
    if count == 1 then
      if word == "minute" then Some(Minute)
      else if word == "hour" then Some(Hour)
      else if word == "day" then Some(Day)
      else None
    else
      if word == "minutes" then Some(Minute)
      else if word == "hours" then Some(Hour)
      else if word == "days" then Some(Day)
      else None
  }

  /** Python's `s.split(" ")`: every space separates, empty words are kept. */
  function Split(s: string): (ws: seq<string>)
    ensures |ws| > 0
    decreases |s|
  {
    if s == [] then [""]
    else if s[0] == ' ' then [""] + Split(s[1..])
    else
      var rest := Split(s[1..]);
      [[s[0]] + rest[0]] + rest[1..]
  }

  /**
   * Reads one `count unit` word pair: its unit and its minutes. After the
   * first pair, the unit must be smaller than the one before it (`larger`)
   * and the count must lie strictly between 0 and the unit's span.
   */
  function ReadPart(countWord: string, unitWord: string, larger: Option<Unit>): Option<(Unit, nat)> {
    var count := ParseNat(countWord);
    var unit := if count.Some? then UnitWord(count.value, unitWord) else None;
    if unit.None? then None
    else if larger.Some? && !(Rank(unit.value) < Rank(larger.value) && 0 < count.value < Span(unit.value)) then None
    else Some((unit.value, PartMinutes(unit.value, count.value)))
  }

  /** Reads `count unit` word pairs to the end and totals them in minutes. */
  function ReadParts(ws: seq<string>, larger: Option<Unit>): Option<nat>
    decreases |ws|, 0
  {
    if |ws| < 2 then None else Continue(ReadPart(ws[0], ws[1], larger), ws[2..])
  }

  /** The total after a first pair read as `first`, followed by the words `rest`. */
  function Continue(first: Option<(Unit, nat)>, rest: seq<string>): Option<nat>
    decreases |rest|, 1
  {
    if first.None? then None
    else if rest == [] then Some(first.value.1)
    else
      var tail := ReadParts(rest, Some(first.value.0));
      if tail.None? then None else Some(first.value.1 + tail.value)
  }

  function ParseDuration(s: string): Option<nat> {
    ReadParts(Split(s), None)
  }

  // ---------------------------------------------------------------------------
  // Lemmas

  /** `int(x)` drops the fraction toward zero: it is within one of `x`, on the same side of zero. */
  lemma TruncTowardZero(x: real)
    ensures x >= 0.0 ==> 0 <= Trunc(x) && Trunc(x) as real <= x < Trunc(x) as real + 1.0
    ensures x < 0.0 ==> Trunc(x) <= 0 && Trunc(x) as real - 1.0 < x <= Trunc(x) as real
  {
  }

  /** A float `%` by a positive divisor lies in [0, y). */
  lemma FloatModRange(x: real, y: real)
    requires y > 0.0
    ensures 0.0 <= FloatMod(x, y) < y
  {
    var f := x / y;
    var r := f - (f.Floor as real);
    assert x == y * f;
    assert FloatMod(x, y) == y * r;
    assert y * r < y by {
      assert y * (1.0 - r) > 0.0;
    }
  }

  /** A float `%` leaves a value already in [0, y) as it is. */
  lemma FloatModSmall(x: real, y: real)
    requires 0.0 <= x < y
    ensures FloatMod(x, y) == x
  {
    assert 0.0 <= x / y < 1.0;
  }

  lemma {:induction false} SplitWord(w: string, rest: string)
    requires ' ' !in w
    ensures Split(w + rest) == [w + Split(rest)[0]] + Split(rest)[1..]
  {
    if w == [] {
      assert w + rest == rest;
      assert w + Split(rest)[0] == Split(rest)[0];
      assert Split(rest) == [Split(rest)[0]] + Split(rest)[1..];
    } else {
      var tail := Split(w[1..] + rest);
      assert Split(w + rest) == [[w[0]] + tail[0]] + tail[1..] by {
        assert (w + rest)[0] == w[0] && (w + rest)[1..] == w[1..] + rest;
      }
      SplitWord(w[1..], rest);
      assert [w[0]] + (w[1..] + Split(rest)[0]) == w + Split(rest)[0];
    }
  }

  /** A word followed by a space splits off as the first word. */
  lemma SplitFirstWord(w: string, rest: string)
    requires ' ' !in w
    ensures Split(w + " " + rest) == [w] + Split(rest)
  {
    SplitWord(w, " " + rest);
    assert w + " " + rest == w + (" " + rest);
    assert (" " + rest)[1..] == rest;
    assert Split(" " + rest) == [""] + Split(rest);
    assert w + "" == w;
  }

  /** A string without spaces is a single word. */
  lemma SplitLastWord(w: string)
    requires ' ' !in w
    ensures Split(w) == [w]
  {
    SplitWord(w, "");
    assert w + "" == w;
  }

  /** Python's `int()` and `%` on a non-negative float depend only on its whole part: hours and minutes. */
  lemma HourFloorFacts(x: real)
    requires x >= 0.0
    ensures Trunc(x / 60.0) == x.Floor / 60
    ensures Trunc(FloatMod(x, 60.0)) == x.Floor % 60
  {
    var n := x.Floor;
    var q := n / 60;
    assert q as real <= x / 60.0 < q as real + 1.0;
    assert (x / 60.0).Floor == q;
    assert (n - 60 * q) as real <= x - 60.0 * (q as real) < (n - 60 * q) as real + 1.0;
  }

  /** The same for days and the hours past them. */
  lemma DayFloorFacts(x: real)
    requires x >= 0.0
    ensures Trunc(x / 60.0 / 24.0) == x.Floor / 1440
    ensures Trunc(FloatMod(x / 60.0, 24.0)) == (x.Floor / 60) % 24
  {
    var n := x.Floor;
    var q := n / 60;
    var d := n / 1440;
    assert q as real <= x / 60.0 < q as real + 1.0;
    assert d as real <= x / 60.0 / 24.0 < d as real + 1.0;
    assert (x / 60.0 / 24.0).Floor == d;
    assert q / 24 == d;
    assert (q - 24 * d) as real <= x / 60.0 - 24.0 * (d as real) < (q - 24 * d) as real + 1.0;
  }

  lemma HoursTextByFloor(x: real)
    requires x >= 0.0
    ensures HoursText(x) == HourText(x.Floor / 60, x.Floor % 60)
  {
    HourFloorFacts(x);
  }

  lemma DaysTextByFloor(x: real)
    requires x >= 0.0
    ensures DaysText(x) == DayText(x.Floor / 1440, (x.Floor / 60) % 24, x.Floor % 60)
  {
    HourFloorFacts(x);
    DayFloorFacts(x);
  }

  /**
   * Outside the interval (1, 2), the text for a non-negative number of
   * minutes is the text for its whole part.
   */
  lemma FormatDurationByFloor(minutes: real)
    requires minutes >= 0.0 && !(1.0 < minutes < 2.0)
    ensures FormatDuration(minutes) == FormatDuration(minutes.Floor as real)
  {
    var n := minutes.Floor;
    var x := n as real;
    assert x.Floor == n;
    if minutes < 60.0 {
      assert x < 60.0 && Trunc(minutes) == Trunc(x);
      assert (minutes == 1.0) == (x == 1.0);
    } else if minutes < 1440.0 {
      assert 60.0 <= x < 1440.0;
      assert minutes / 60.0 < 24.0 && x / 60.0 < 24.0;
      HoursTextByFloor(minutes);
      HoursTextByFloor(x);
    } else {
      assert 1440.0 <= x;
      assert minutes / 60.0 >= 24.0 && x / 60.0 >= 24.0;
      DaysTextByFloor(minutes);
      DaysTextByFloor(x);
    }
  }

  lemma NatToStringOne()
    ensures NatToString(1) == "1"
  {
  }

  lemma ReadOneMinute()
    ensures ParseDuration("1 minute") == Some(1)
  {
    SplitOneMinute();
    NatToStringOne();
    ReadPhrase(1, "minute", Minute, None);
  }

  lemma SplitOneMinute()
    ensures Split("1 minute") == ["1", "minute"]
  {
    SplitFirstWord("1", "minute");
    SplitLastWord("minute");
    assert "1" + " " + "minute" == "1 minute";
  }

  /** A count printed in decimal and the unit word agreeing with it read as that many minutes of the unit. */
  lemma ReadPhrase(c: nat, word: string, u: Unit, larger: Option<Unit>)
    requires UnitWord(c, word) == Some(u)
    requires larger.Some? ==> Rank(u) < Rank(larger.value) && 0 < c < Span(u)
    ensures ReadPart(NatToString(c), word, larger) == Some((u, PartMinutes(u, c)))
  {
    ParseNatToString(c);
  }

  /** Two space-free words and a space before the rest split off as the first two words. */
  lemma SplitTwoWords(a: string, word: string, rest: string)
    requires ' ' !in a && ' ' !in word
    ensures Split(a + " " + word + " " + rest) == [a, word] + Split(rest)
  {
    var tail := word + " " + rest;
    assert a + " " + word + " " + rest == a + " " + tail;
    SplitFirstWord(a, tail);
    SplitFirstWord(word, rest);
    assert [a] + ([word] + Split(rest)) == [a, word] + Split(rest);
  }

  /** Two space-free words separated by a space are exactly two words. */
  lemma SplitPair(a: string, word: string)
    requires ' ' !in a && ' ' !in word
    ensures Split(a + " " + word) == [a, word]
  {
    SplitFirstWord(a, word);
    SplitLastWord(word);
  }

  /** The text for at least an hour and under a day, in terms of the whole hours and minutes. */
  lemma FormatHours(n: nat)
    requires 60 <= n < 1440
    ensures FormatDuration(n as real) == HourText(n / 60, n % 60)
  {
    var x := n as real;
    assert x / 60.0 < 24.0;
    HoursTextByFloor(x);
    assert x.Floor == n;
  }

  /** The text for at least a day, in terms of the whole days, hours and minutes. */
  lemma FormatDays(n: nat)
    requires n >= 1440
    ensures FormatDuration(n as real) == DayText(n / 1440, (n / 60) % 24, n % 60)
  {
    var x := n as real;
    assert x / 60.0 >= 24.0;
    DaysTextByFloor(x);
    assert x.Floor == n;
  }

  // The text as a list of (count, unit) parts.

  function UnitName(u: Unit): string {
    match u
    case Minute => "minute"
    case Hour => "hour"
    case Day => "day"
  }

  /** The phrases `FormatDuration` joins, one per part. */
  function Phrases(ps: seq<(nat, Unit)>): seq<string>
    decreases |ps|
  {
    if ps == [] then [] else [PartPhrase(ps[0])] + Phrases(ps[1..])
  }

  function PartPhrase(p: (nat, Unit)): string {
    CountPhrase(p.0, UnitName(p.1))
  }

  /** The words those phrases split into: each count, then its unit word. */
  function Words(ps: seq<(nat, Unit)>): seq<string>
    decreases |ps|
  {
    if ps == [] then [] else [NatToString(ps[0].0), PluralWord(ps[0].0, UnitName(ps[0].1))] + Words(ps[1..])
  }

  function Total(ps: seq<(nat, Unit)>): nat
    decreases |ps|
  {
    if ps == [] then 0 else PartMinutes(ps[0].1, ps[0].0) + Total(ps[1..])
  }

  /** What `ReadParts` accepts: units in decreasing order, each count after the first inside its span. */
  predicate Readable(ps: seq<(nat, Unit)>, larger: Option<Unit>)
    decreases |ps|
  {
    && ps != []
    && (larger.Some? ==> Rank(ps[0].1) < Rank(larger.value) && 0 < ps[0].0 < Span(ps[0].1))
    && (|ps| > 1 ==> Readable(ps[1..], Some(ps[0].1)))
  }

  /**
   * The parts the script prints for a whole number of minutes: minutes
   * alone under an hour; whole hours and the minutes past them under a day;
   * otherwise whole days, the hours and the minutes past them. Zero parts
   * after the first are dropped.
   */
  function Parts(n: nat): seq<(nat, Unit)> {
    if n < 60 then [(n, Minute)]
    else if n < 1440 then HourParts(n / 60, n % 60)
    else DayParts(n / 1440, (n / 60) % 24, n % 60)
  }

  function HourParts(h: nat, m: nat): seq<(nat, Unit)> {
    if m > 0 then [(h, Hour), (m, Minute)] else [(h, Hour)]
  }

  function DayParts(d: nat, rh: nat, rm: nat): seq<(nat, Unit)> {
    if rh > 0 && rm > 0 then [(d, Day), (rh, Hour), (rm, Minute)]
    else if rh > 0 then [(d, Day), (rh, Hour)]
    else if rm > 0 then [(d, Day), (rm, Minute)]
    else [(d, Day)]
  }

  /** The tails of two- and three-element lists. */
  lemma Tails<T>(a: T, b: T, c: T)
    ensures [a, b][1..] == [b] && [a, b, c][1..] == [b, c] && [a][1..] == [] && [b][1..] == [] && [c][1..] == []
  {
  }

  /** Phrases and totals of lists of one, two and three parts. */
  lemma PartLists(a: (nat, Unit), b: (nat, Unit), c: (nat, Unit))
    ensures Phrases([a]) == [PartPhrase(a)]
    ensures Phrases([a, b]) == [PartPhrase(a), PartPhrase(b)]
    ensures Phrases([a, b, c]) == [PartPhrase(a), PartPhrase(b), PartPhrase(c)]
    ensures Total([a]) == PartMinutes(a.1, a.0)
    ensures Total([a, b]) == PartMinutes(a.1, a.0) + PartMinutes(b.1, b.0)
    ensures Total([a, b, c]) == PartMinutes(a.1, a.0) + PartMinutes(b.1, b.0) + PartMinutes(c.1, c.0)
  {
    Tails(a, b, c);
    assert Phrases([b]) == [PartPhrase(b)] + Phrases([]);
    assert Phrases([c]) == [PartPhrase(c)] + Phrases([]);
    assert Phrases([b, c]) == [PartPhrase(b)] + Phrases([c]);
    assert Total([b]) == PartMinutes(b.1, b.0) + Total([]);
    assert Total([c]) == PartMinutes(c.1, c.0) + Total([]);
    assert Total([b, c]) == PartMinutes(b.1, b.0) + Total([c]);
  }

  lemma UnitWordOfName(c: nat, u: Unit)
    ensures UnitWord(c, PluralWord(c, UnitName(u))) == Some(u)
    ensures ' ' !in PluralWord(c, UnitName(u))
  {
  }

  /** Joined with spaces, the phrases split back into the words. */
  lemma {:induction false} SplitJoinPhrases(ps: seq<(nat, Unit)>)
    requires ps != []
    ensures Split(Join(Phrases(ps), " ")) == Words(ps)
    decreases |ps|
  {
    var (c, u) := ps[0];
    var w := PluralWord(c, UnitName(u));
    UnitWordOfName(c, u);
    assert CountPhrase(c, UnitName(u)) == IntToString(c) + " " + w;
    if |ps| == 1 {
      assert Phrases(ps) == [CountPhrase(c, UnitName(u))];
      assert Words(ps) == [NatToString(c), w];
      SplitPair(IntToString(c), w);
    } else {
      var rest := Join(Phrases(ps[1..]), " ");
      assert Phrases(ps)[1..] == Phrases(ps[1..]);
      assert Join(Phrases(ps), " ") == IntToString(c) + " " + w + " " + rest;
      SplitTwoWords(IntToString(c), w, rest);
      SplitJoinPhrases(ps[1..]);
    }
  }

  /** `ReadParts` totals the words of readable parts. */
  lemma {:induction false} ReadWords(ps: seq<(nat, Unit)>, larger: Option<Unit>)
    requires Readable(ps, larger)
    ensures ReadParts(Words(ps), larger) == Some(Total(ps))
    decreases |ps|
  {
    var (c, u) := ps[0];
    var w := PluralWord(c, UnitName(u));
    var rest := Words(ps[1..]);
    var first := ReadPart(NatToString(c), w, larger);
    assert first == Some((u, PartMinutes(u, c))) by {
      UnitWordOfName(c, u);
      ReadPhrase(c, w, u, larger);
    }
    assert ReadParts(Words(ps), larger) == Continue(first, rest) by {
      var ws := Words(ps);
      assert ws == [NatToString(c), w] + rest;
      assert ws[0] == NatToString(c) && ws[1] == w && ws[2..] == rest;
    }
    assert Total(ps) == PartMinutes(u, c) + Total(ps[1..]);
    if |ps| == 1 {
      assert rest == [] && Total(ps[1..]) == 0 by {
        assert ps[1..] == [];
      }
    } else {
      ReadWords(ps[1..], Some(u));
      assert rest != [] by {
        assert ps[1..] != [];
      }
    }
  }

  lemma PartsReadable(n: nat)
    ensures Readable(Parts(n), None)
    ensures Total(Parts(n)) == n
  {
    if n < 60 {
      PartLists((n, Minute), (n, Minute), (n, Minute));
    } else if n < 1440 {
      HourPartsReadable(n / 60, n % 60);
    } else {
      DayDecomposition(n);
      DayPartsReadable(n / 1440, (n / 60) % 24, n % 60);
    }
  }

  lemma HourPartsReadable(h: nat, m: nat)
    requires m < 60
    ensures Readable(HourParts(h, m), None)
    ensures Total(HourParts(h, m)) == 60 * h + m
  {
    Tails((h, Hour), (m, Minute), (0, Minute));
    PartLists((h, Hour), (m, Minute), (0, Minute));
  }

  lemma DayPartsReadable(d: nat, rh: nat, rm: nat)
    requires rh < 24 && rm < 60
    ensures Readable(DayParts(d, rh, rm), None)
    ensures Total(DayParts(d, rh, rm)) == 1440 * d + 60 * rh + rm
  {
    if rh > 0 {
      Tails((d, Day), (rh, Hour), (rm, Minute));
      PartLists((d, Day), (rh, Hour), (rm, Minute));
    } else {
      Tails((d, Day), (rm, Minute), (rm, Minute));
      PartLists((d, Day), (rm, Minute), (rm, Minute));
    }
  }

  lemma DayDecomposition(n: nat)
    ensures n == 1440 * (n / 1440) + 60 * ((n / 60) % 24) + n % 60
  {
  }

  /** Joining two and three phrases. */
  lemma JoinPhrases(a: string, b: string, c: string)
    ensures Join([a, b], " ") == a + " " + b
    ensures Join([a, b, c], " ") == a + " " + (b + " " + c)
  {
    Tails(a, b, c);
    assert Join([b], " ") == b;
    assert Join([c], " ") == c;
    assert Join([b, c], " ") == b + " " + Join([c], " ");
  }

  /** The text for a whole number of minutes is its parts' phrases joined with spaces. */
  lemma FormatWhole(n: nat)
    ensures FormatDuration(n as real) == Join(Phrases(Parts(n)), " ")
  {
    if n < 60 {
      NatToStringOne();
      assert Trunc(n as real) == n;
      PartLists((n, Minute), (n, Minute), (n, Minute));
    } else if n < 1440 {
      FormatHours(n);
      HourPhrases(n / 60, n % 60);
    } else {
      FormatDays(n);
      DayPhrases(n / 1440, (n / 60) % 24, n % 60);
    }
  }

  lemma HourPhrases(h: nat, m: nat)
    ensures HourText(h, m) == Join(Phrases(HourParts(h, m)), " ")
  {
    var hp, mp := CountPhrase(h, "hour"), CountPhrase(m, "minute");
    PartLists((h, Hour), (m, Minute), (m, Minute));
    JoinPhrases(hp, mp, mp);
  }

  lemma DayPhrases(d: nat, rh: nat, rm: nat)
    ensures DayText(d, rh, rm) == Join(Phrases(DayParts(d, rh, rm)), " ")
  {
    var dp, hp, mp := CountPhrase(d, "day"), CountPhrase(rh, "hour"), CountPhrase(rm, "minute");
    PartLists((d, Day), (rh, Hour), (rm, Minute));
    PartLists((d, Day), (rm, Minute), (rm, Minute));
    JoinPhrases(dp, hp, mp);
    JoinPhrases(dp, mp, mp);
    if rh > 0 && rm > 0 {
      assert [dp] + [hp] + [mp] == [dp, hp, mp];
    } else if rh > 0 {
      assert [dp] + [hp] + [] == [dp, hp];
    } else if rm > 0 {
      assert [dp] + [] + [mp] == [dp, mp];
    } else {
      assert [dp] + [] + [] == [dp];
    }
  }

  /** Reading back the text for a whole number of minutes gives that number. */
  lemma WholeMinutesRoundTrip(n: nat)
    ensures ParseDuration(FormatDuration(n as real)) == Some(n)
  {
    FormatWhole(n);
    SplitJoinPhrases(Parts(n));
    PartsReadable(n);
    ReadWords(Parts(n), None);
  }

  /**
   * The text for a non-negative number of minutes reads back as its whole
   * part, except between 1 and 2 minutes, where the script prints "1 minutes".
   */
  lemma FormatDurationRoundTrip(minutes: real)
    requires minutes >= 0.0 && !(1.0 < minutes < 2.0)
    ensures ParseDuration(FormatDuration(minutes)) == Some(minutes.Floor)
  {
    FormatDurationByFloor(minutes);
    WholeMinutesRoundTrip(minutes.Floor);
  }

  /** The singular "1 minute" is printed for exactly one minute and nothing else. */
  lemma SingularMinuteOnlyForOne(minutes: real)
    ensures FormatDuration(minutes) == "1 minute" <==> minutes == 1.0
  {
    if minutes >= 60.0 {
      FormatDurationRoundTrip(minutes);
      ReadOneMinute();
    }
  }

  /**
   * A negative elapsed time (a wall clock that stepped back) prints as a
   * signed count, "-N minutes", which reads back as no duration at all.
   */
  lemma NegativeMinutesUnreadable(minutes: real)
    requires minutes <= -1.0
    ensures FormatDuration(minutes) == IntToString(Trunc(minutes)) + " minutes"
    ensures FormatDuration(minutes)[0] == '-'
    ensures ParseDuration(FormatDuration(minutes)) == None
  {
    var w := IntToString(Trunc(minutes));
    assert Trunc(minutes) < 0;
    assert w[0] == '-';
    assert FormatDuration(minutes) == w + " " + "minutes";
    SplitFirstWord(w, "minutes");
    SplitLastWord("minutes");
    assert Split(FormatDuration(minutes)) == [w, "minutes"];
    assert !AllDigits(w);
    assert ParseNat(w) == None;
    assert ReadPart(w, "minutes", None) == None;
    assert ReadParts([w, "minutes"], None) == None;
  }

  /** A quirk kept from the script: a fractional minute count in (1, 2) prints "1 minutes". */
  lemma FractionalOneMinute(minutes: real)
    requires 1.0 < minutes < 2.0
    ensures FormatDuration(minutes) == "1 minutes"
  {
    NatToStringOne();
  }

  /** One example for each range of the docstring: 45 minutes, 90 minutes and 1500 minutes. */
  lemma FormatMinutesExample()
    ensures FormatDuration(45.0) == "45 minutes"
  {
    assert Trunc(45.0) == 45;
    assert NatToString(45) == "45";
  }

  lemma FormatHoursExample()
    ensures FormatDuration(90.0) == "1 hour 30 minutes"
  {
    var hp, mp := CountPhrase(1, "hour"), CountPhrase(30, "minute");
    assert hp == "1 hour" by {
      NatToStringOne();
    }
    assert mp == "30 minutes" by {
      assert NatToString(30) == "30";
    }
    assert FormatDuration(90.0) == hp + " " + mp by {
      FormatHours(90);
    }
  }

  lemma FormatDaysExample()
    ensures FormatDuration(1500.0) == "1 day 1 hour"
  {
    var dp, hp := CountPhrase(1, "day"), CountPhrase(1, "hour");
    assert dp == "1 day" && hp == "1 hour" by {
      NatToStringOne();
    }
    assert FormatDuration(1500.0) == dp + " " + hp by {
      FormatDays(1500);
      assert [dp] + [hp] + [] == [dp, hp];
      JoinPhrases(dp, hp, hp);
    }
  }
}

=== FILE: options.dfy ===
/** The optional value used wherever the controller script uses Python's `None`. */
module Options {

  datatype Option<+T> = None | Some(value: T)
}

=== FILE: temp_extract.dfy ===
/**
 * `extract_temp_f` of the controller script (main_script.py): find a device's
 * marker in the text the script makes of the sensor tool's result (`str` of
 * the completed-process object, not the tool's raw standard output), look at a 20-character window a fixed
 * number of characters past it, take the first run of digits followed by a
 * comma, and read it as hundredths of a degree Celsius.
 */
module TempExtract {
  import opened Options
  import opened Decimal

  /** Length of the window searched after a marker. */
  const WINDOW: nat := 20

  /** Where each thermometer's reading sits in the sensor tool's output. */
  const HOT_TUB_MARKER: string := "Hot Tub Thermometer\\"
  const HOT_TUB_OFFSET: nat := 159
  const SOLAR_MARKER: string := "Solar Thermometer\\"
  const SOLAR_OFFSET: nat := 104

  predicate OccursAt(s: string, marker: string, i: nat) {
    i + |marker| <= |s| && s[i..i + |marker|] == marker
  }

  /** `s.find(marker)` from index `i` on: the first index where `marker` occurs, None for -1. */
  function FindFrom(s: string, marker: string, i: nat): (r: Option<nat>)
    ensures r.Some? ==> i <= r.value && OccursAt(s, marker, r.value)
    ensures r.Some? ==> forall j: nat :: i <= j < r.value ==> !OccursAt(s, marker, j)
    ensures r.None? ==> forall j: nat :: i <= j ==> !OccursAt(s, marker, j)
    decreases |s| - i
  {
    if i + |marker| > |s| then None
    else if OccursAt(s, marker, i) then Some(i)
    else FindFrom(s, marker, i + 1)
  }

  function Find(s: string, marker: string): Option<nat> {
    FindFrom(s, marker, 0)
  }

  function Min(a: nat, b: nat): nat {
    if a <= b then a else b
  }

  /** Python's `s[start : start + 20]`, which stops at the end of `s`. */
  function Window(s: string, start: nat): (w: string)
    ensures |w| <= WINDOW
    ensures start <= |s| ==> |w| == Min(WINDOW, |s| - start)
    ensures start >= |s| ==> w == []
    ensures forall j :: 0 <= j < |w| ==> w[j] == s[start + j]
  {
    s[Min(start, |s|)..Min(start + WINDOW, |s|)]
  }

  /** The pattern `(\d+),` matches `s` at `i`, its digits ending at the comma at `e`. */
  predicate DigitsThenComma(s: string, i: nat, e: nat) {
    i < e < |s| && AllDigits(s[i..e]) && s[e] == ','
  }

  /** The end of the run of digits that starts at `i`. */
  function RunEnd(s: string, i: nat): (e: nat)
    requires i <= |s|
    ensures i <= e <= |s| && AllDigits(s[i..e])
    ensures e < |s| ==> !IsDigit(s[e])
    decreases |s| - i
  {
    if i < |s| && IsDigit(s[i]) then RunEnd(s, i + 1) else i
  }

  /** A match starting at `i` can only end where the run of digits does. */
  lemma MatchEndsAtRunEnd(s: string, i: nat, e: nat)
    requires DigitsThenComma(s, i, e)
    ensures e == RunEnd(s, i)
  {
    RunEndAtNonDigit(s, i, e);
  }

  /** A run of digits followed by a non-digit ends there. */
  lemma {:induction false} RunEndAtNonDigit(s: string, i: nat, e: nat)
    requires i <= e < |s| && AllDigits(s[i..e]) && !IsDigit(s[e])
    ensures RunEnd(s, i) == e
    decreases e - i
  {
    if i < e {
      assert IsDigit(s[i..e][0]);
      assert AllDigits(s[i + 1..e]) by {
        assert s[i + 1..e] == s[i..e][1..];
      }
      RunEndAtNonDigit(s, i + 1, e);
    }
  }

  /**
   * Where `re.search(r"(\d+),", s)` matches, scanning from `i`: the start of
   * the leftmost match and the position of its comma. The greedy `\d+` takes
   * the whole run of digits; backing off cannot help, since a shorter run is
   * followed by another digit, not a comma.
   */
  function MatchFrom(s: string, i: nat): (r: Option<(nat, nat)>)
    requires i <= |s|
    ensures r.Some? ==> i <= r.value.0 && DigitsThenComma(s, r.value.0, r.value.1)
    ensures r.Some? ==> forall k: nat, e: nat :: i <= k < r.value.0 ==> !DigitsThenComma(s, k, e)
    ensures r.None? ==> forall k: nat, e: nat :: i <= k ==> !DigitsThenComma(s, k, e)
    decreases |s| - i
  {
    if i == |s| then None
    else
      var e := RunEnd(s, i);
      if i < e < |s| && s[e] == ',' then Some((i, e))
      else
        var r := MatchFrom(s, i + 1);
        assert forall e' :: !DigitsThenComma(s, i, e') by {
          forall e' | DigitsThenComma(s, i, e') ensures false {
            MatchEndsAtRunEnd(s, i, e');
          }
        }
        r
  }

  /** `int(m.group(1))` for the first match of `(\d+),` in `s`, or None when it has none. */
  function Search(s: string): (r: Option<nat>)
    ensures r.None? <==> forall k: nat, e: nat :: !DigitsThenComma(s, k, e)
  {
    match MatchFrom(s, 0)
    case None => None
    case Some((k, e)) => Some(DigitsValue(s[k..e]))
  }

  /** Hundredths of a degree Celsius in degrees Fahrenheit: `(v / 100) * 9 / 5 + 32`. */
  function HundredthsCToF(v: nat): (f: real)
    ensures (f - 32.0) * 5.0 / 9.0 * 100.0 == v as real
  {
    (v as real / 100.0) * 9.0 / 5.0 + 32.0
  }

  /** `extract_temp_f(output, marker, offset)`, None where the script returns None. */
  function ExtractTempF(output: string, marker: string, offset: nat): Option<real> {
    match Find(output, marker)
    case None => None
    case Some(idx) => ReadAt(output, idx + |marker| + offset)
  }

  /** The reading in the window that starts at `start`, in degrees Fahrenheit. */
  function ReadAt(output: string, start: nat): Option<real> {
    match Search(Window(output, start))
    case None => None
    case Some(v) => Some(HundredthsCToF(v))
  }

  /**
   * The hot tub and raw solar readings taken from `str(result)` of one run of
   * the sensor tool; the offsets are positions in that printed text.
   */
  function ReadTemperatures(output: string): (Option<real>, Option<real>) {
    (ExtractTempF(output, HOT_TUB_MARKER, HOT_TUB_OFFSET), ExtractTempF(output, SOLAR_MARKER, SOLAR_OFFSET))
  }

  // ---------------------------------------------------------------------------
  // Lemmas

  ghost predicate FirstOccurrence(s: string, marker: string, idx: nat) {
    OccursAt(s, marker, idx) && forall j: nat :: j < idx ==> !OccursAt(s, marker, j)
  }

  ghost predicate NoMatch(w: string) {
    forall k: nat, e: nat :: !DigitsThenComma(w, k, e)
  }

  ghost predicate FirstMatch(w: string, k: nat, e: nat) {
    DigitsThenComma(w, k, e) && forall k': nat, e': nat :: k' < k ==> !DigitsThenComma(w, k', e')
  }

  /** The window a reading is taken from: `offset` characters past the marker's first occurrence. */
  function ReadingWindow(output: string, marker: string, offset: nat, idx: nat): string {
    Window(output, idx + |marker| + offset)
  }

  /**
   * No reading exactly when the marker is absent, or when the window after
   * its first occurrence holds no run of digits followed by a comma.
   */
  lemma ExtractTempFMissing(output: string, marker: string, offset: nat)
    ensures ExtractTempF(output, marker, offset).None? <==>
      (forall j: nat :: !OccursAt(output, marker, j)) ||
      (exists idx: nat :: FirstOccurrence(output, marker, idx) && NoMatch(ReadingWindow(output, marker, offset, idx)))
  {
    match Find(output, marker)
    case None =>
    case Some(idx) =>
      assert FirstOccurrence(output, marker, idx);
      forall idx': nat | FirstOccurrence(output, marker, idx')
        ensures idx' == idx
      {
      }
  }

  /** A reading found is the value of the leftmost match in the window after the marker's first occurrence. */
  lemma ExtractTempFFound(output: string, marker: string, offset: nat, t: real) returns (idx: nat, k: nat, e: nat)
    requires ExtractTempF(output, marker, offset) == Some(t)
    ensures FirstOccurrence(output, marker, idx)
    ensures FirstMatch(ReadingWindow(output, marker, offset, idx), k, e)
    ensures t == HundredthsCToF(DigitsValue(ReadingWindow(output, marker, offset, idx)[k..e]))
  {
    idx := Find(output, marker).value;
    var w := ReadingWindow(output, marker, offset, idx);
    k, e := MatchFrom(w, 0).value.0, MatchFrom(w, 0).value.1;
  }

  /** The first occurrence is what `Find` reports. */
  lemma FindFirstOccurrence(s: string, marker: string, idx: nat)
    requires FirstOccurrence(s, marker, idx)
    ensures Find(s, marker) == Some(idx)
  {
  }

  /** Digits followed by a comma at the very start of a window are its first match. */
  lemma SearchLeadingDigits(w: string, digits: string)
    requires digits != [] && AllDigits(digits)
    requires |digits| < |w| && w[..|digits|] == digits && w[|digits|] == ','
    ensures Search(w) == Some(DigitsValue(digits))
  {
    assert w[0..|digits|] == digits;
    assert DigitsThenComma(w, 0, |digits|);
    MatchEndsAtRunEnd(w, 0, |digits|);
  }

  /**
   * When the marker first occurs at `idx` and the window `offset` characters
   * past it begins with a run of digits and a comma, the reading is the value
   * of those digits in degrees Fahrenheit.
   */
  lemma ExtractTempFReadsReport(s: string, marker: string, offset: nat, idx: nat, digits: string)
    requires FirstOccurrence(s, marker, idx)
    requires digits != [] && AllDigits(digits)
    requires var w := ReadingWindow(s, marker, offset, idx);
      |digits| < |w| && w[..|digits|] == digits && w[|digits|] == ','
    ensures ExtractTempF(s, marker, offset) == Some(HundredthsCToF(DigitsValue(digits)))
  {
    FindFirstOccurrence(s, marker, idx);
    SearchLeadingDigits(ReadingWindow(s, marker, offset, idx), digits);
  }

  /** In particular, a reading printed without leading zeros is read back exactly. */
  lemma ExtractTempFReadsPrinted(s: string, marker: string, offset: nat, idx: nat, v: nat)
    requires FirstOccurrence(s, marker, idx)
    requires var w := ReadingWindow(s, marker, offset, idx);
      |NatToString(v)| < |w| && w[..|NatToString(v)|] == NatToString(v) && w[|NatToString(v)|] == ','
    ensures ExtractTempF(s, marker, offset) == Some(HundredthsCToF(v))
  {
    ParseNatToString(v);
    ExtractTempFReadsReport(s, marker, offset, idx, NatToString(v));
  }
}
